=== FILE: README.md ===
# NB CLI WebUI — a functional model of its control logic

NB CLI WebUI is a web front end for the NoneBot command-line tool. Through it a user can create NoneBot
projects ("instances"), install and uninstall store modules (plugins, adapters, drivers), and start, stop
and talk to the bot processes. This project models that control logic in Dafny and proves properties of it.
The model covers:

- the background tasks behind the create, install and uninstall endpoints. Each task is a fixed list of
  stages folded over abstract step outcomes. It produces a log, a pip call and a config change. Its log
  buffer is registered under a key and evicted 600 seconds later.
- the module-type classification by `re.search(r"nonebot-(.*?)-", link)` with the "~" override.
- the run, stop and write dispatch over the process registry, the environment a bot is started with, and
  the list endpoint's join of project records against running processes.
- the WebUI's own configuration (`AppConfig`): defaults, completeness, token reset, the JSON file and its
  reading back, and the first-run setup.
- the `nb ui` commands `run`, `setting_token`, `list_config` and `setting_config`.
- the extension-store state of the frontend: page clamping, setters, and the `requesting` flag around
  each backend request.

I/O is replaced by parameters:

- pip, the project generator, venv creation, `rmtree`, `is_file`, `is_dir`, the password hash and
  verifier, the random generators, the backend API, and prompt answers are all inputs.
- each of those operations becomes an abstract outcome (`Pass | Throw(msg)`) or a function parameter.

Modules, in dependency order:

- `Base`: Option and Result.
- `Paths`: the part of pathlib the handlers use.
- `Logs`: log entries and the key→buffer registry with its eviction queue.
- `Pipeline`: the stop-at-first-failure fold.
- `Classify`: the link classification.
- `Projects`: shared records.
- `ModuleTasks`, `CreateTask` and `Instances`: the endpoints.
- `IntParse`: Python's `int()` on text.
- `Config`, `Cli` and `ExtensionStore`: the config, the commands and the store state.

## Model

| member | source | states |
|---|---|---|
| Paths.Parse | nb_cli_plugin_webui/api/routes/project/project.py:246-249 | `Path(s)` is well formed (no empty, "." or separator-holding part) and is rooted exactly when s starts with a separator of the platform |
| Paths.Div | nb_cli_plugin_webui/api/routes/project/project.py:62-63 | `a / b` is b when b is rooted, otherwise a's root with a's parts followed by b's |
| Paths.DivWellFormed | nb_cli_plugin_webui/api/routes/project/project.py:62-63 | `a / b` of well-formed paths is well formed |
| Paths.Absolute | nb_cli_plugin_webui/api/routes/project/project.py:96 | `absolute()` is always rooted, leaves a rooted path alone, and puts the working directory's parts in front of a relative one |
| Paths.ComponentsOfJoin | nb_cli_plugin_webui/api/routes/project/project.py:246-249 | splitting the separator-joined text of well-formed parts gives exactly those parts back |
| Paths.Text | nb_cli_plugin_webui/api/routes/project/project.py:247-250 | `str(q)` of a well-formed path is non-empty and starts with a separator exactly when q is rooted |
| Paths.ParseText | nb_cli_plugin_webui/api/routes/project/project.py:247-250 | parsing `str(q)` of a well-formed path gives q back (round trip of the text the handler prints into PATH) |
| Logs.Add | nb_cli_plugin_webui/api/routes/project/project.py:67 | `add_storage` makes the key name the buffer, adds only that key, and leaves every other key and the eviction queue alone |
| Logs.OpenTaskLog | nb_cli_plugin_webui/api/routes/project/project.py:65-67 | registering a task log adds an empty buffer under the key and appends the key at the end of the pending evictions, earlier ones kept in order |
| Logs.Fire | nb_cli_plugin_webui/api/routes/project/project.py:176-178 | the earliest scheduled `storages.pop(key)` removes that key only and leaves the rest of the registry as it was (a pop of a missing key changes nothing) |
| Logs.FireN | nb_cli_plugin_webui/api/routes/project/project.py:176-178 | after n evictions fire the queue holds the later ones and no key was added |
| Logs.Deliver | nb_cli_plugin_webui/api/routes/project/project.py:175 | a task's entries are appended to its buffer while the key is registered; once it is evicted nothing reachable changes |
| Logs.SurvivesEarlierEvictions | nb_cli_plugin_webui/api/routes/project/project.py:176-178 | a key not among the first n evictions is still registered with the same buffer after they fire |
| Logs.GoneAfterItsEviction | nb_cli_plugin_webui/api/routes/project/project.py:176-178 | once the eviction scheduled at position n has fired, that key is no longer registered |
| Logs.TaskLogLifetime | nb_cli_plugin_webui/api/routes/project/project.py:175-180 | a fresh task log holds exactly what the task delivered until all earlier evictions have fired, and is gone right after its own one |
| Pipeline.Caught | nb_cli_plugin_webui/api/routes/project/project.py:122-124 | an operation inside `try/except Exception` succeeds exactly when it passes, and a raise becomes a caught error with its text |
| Pipeline.Uncaught | nb_cli_plugin_webui/api/routes/project/project.py:160-170 | an operation outside any `try` either succeeds or aborts the task, never a caught error |
| Pipeline.Execute | nb_cli_plugin_webui/api/routes/project/project.py:110-173 | the stages before the stopping point all succeeded, the run completes exactly when every stage did, and otherwise it ends as the first unsuccessful stage's outcome says |
| Pipeline.ExecuteLog | nb_cli_plugin_webui/api/routes/project/project.py:110-151 | the log is the progress of every stage that started, then the ERROR entry and the failure entries when a caught failure stopped it |
| Pipeline.StopsAtFailure | nb_cli_plugin_webui/api/routes/project/project.py:122-124 | after a failing stage nothing later can change the run: appending stages leaves the result the same |
| Pipeline.AllPass | nb_cli_plugin_webui/api/routes/project/project.py:110-173 | when every stage succeeds the log is all progress and the run completes |
| Pipeline.FirstProgressLeads | nb_cli_plugin_webui/api/routes/project/project.py:88-102 | the first stage always starts, so its progress entries open the log whatever happens later |
| Pipeline.FailsAt | nb_cli_plugin_webui/api/routes/project/project.py:70-83 | when stage k is the first failure with text msg, exactly k stages passed and the log ends with ERROR(msg) followed by the handler's entries |
| Classify.GroupEnd | nb_cli_plugin_webui/api/routes/project/module.py:85-86 | the lazy `.*?-` ends at the first '-' that no newline precedes, and fails exactly when every '-' has a newline before it |
| Classify.SearchFrom | nb_cli_plugin_webui/api/routes/project/module.py:85-86 | the match found is a real match and comes no later (leftmost start, then shortest group) than any other; no result means no match |
| Classify.LinkGroup | nb_cli_plugin_webui/api/routes/project/module.py:85-91 | `group(1)` exists exactly when the pattern matches somewhere; it is the group of the leftmost match (no other match starts earlier or ends sooner at that start), between "nonebot-" and a '-', and holds no '-' or newline |
| Classify.GroupIsShortest | nb_cli_plugin_webui/api/routes/project/module.py:85 | a shortest match at its start has no '-' inside its group |
| Classify.KindOf | nb_cli_plugin_webui/api/routes/project/module.py:96-101 | the group selects plugin, adapter or driver exactly when it is that word; any other word is kept as an unknown kind |
| Classify.LinkKind | nb_cli_plugin_webui/api/routes/project/module.py:169-175 | uninstall's kind is absent exactly when the link does not match, otherwise the kind of the group |
| Classify.InstallKind | nb_cli_plugin_webui/api/routes/project/module.py:84-93 | a module name containing "~" is a driver whatever the link; otherwise the link decides |
| Classify.AdapterLinkExample | nb_cli_plugin_webui/api/routes/project/module.py:85-91 | "nonebot-adapter-onebot" classifies as adapter |
| Classify.PluginLinkExample | nb_cli_plugin_webui/api/routes/project/module.py:85-91 | "nonebot-plugin-status-x" classifies as plugin: only the text up to the first '-' counts |
| Classify.BuiltinDriverLinkExample | nb_cli_plugin_webui/api/routes/project/module.py:86-90 | "nonebot2[fastapi]" does not match, so a built-in driver installed without "~" is unclassifiable |
| ModuleTasks.UpdateFor | nb_cli_plugin_webui/api/routes/project/module.py:95-104 | plugins are updated only for a body that parsed as Plugin, adapters for the adapter kind, drivers of the given env for the driver kind, and nothing for any other kind |
| ModuleTasks.ModuleTask | nb_cli_plugin_webui/api/routes/project/module.py:53-107 | pip gets the link (with the mirror on install); a config change takes effect only on a completed run with a passing update; the exception leaves the task exactly on an abort or on a failed install (install re-raises) |
| ModuleTasks.RunOfStages | nb_cli_plugin_webui/api/routes/project/module.py:62-107 | the four cases of a module task: pip raises, the link does not classify, the update raises, or "✨ Done!" follows pip's output |
| ModuleTasks.TaskSucceeds | nb_cli_plugin_webui/api/routes/project/module.py:62-107 | a successful task logs "Processing at 3s...", the module-name line, pip's output and "✨ Done!", and applies the planned change, whatever pip's exit code |
| ModuleTasks.InstallerFails | nb_cli_plugin_webui/api/routes/project/module.py:72-82 | a pip failure logs ERROR(text) and "❗ Failed...", changes no config, and escapes the task only for install |
| ModuleTasks.UpdateFails | nb_cli_plugin_webui/api/routes/project/module.py:95-104 | a failing config update logs ERROR(text) and "❗ Failed...", never "✨ Done!", and applies nothing |
| ModuleTasks.Unclassified | nb_cli_plugin_webui/api/routes/project/module.py:169-174 | an unclassifiable link raises after pip ran: no ERROR entry, no "✨ Done!", no config change, with pip already called |
| ModuleTasks.TildeInstallIgnoresLink | nb_cli_plugin_webui/api/routes/project/module.py:84-93 | with "~" in the module name the install's log and ending do not depend on the link, and any change is to the drivers of the given env |
| ModuleTasks.Submit | nb_cli_plugin_webui/api/routes/project/module.py:35-51 | the key comes back exactly when the project exists and the body parses; an unknown project answers 400 without touching the registry; on success the key is registered and its eviction queued |
| ModuleTasks.KeyShowsTaskLog | nb_cli_plugin_webui/api/routes/project/module.py:109-114 | the returned key names a buffer holding exactly the task's log, and its eviction is the last one queued |
| CreateTask.Dashed | nb_cli_plugin_webui/api/routes/project/project.py:45 | every space of the name becomes "-" and every other character stays |
| CreateTask.DashedHasNoSpaces | nb_cli_plugin_webui/api/routes/project/project.py:45 | the dashed name has no space, and dashing again changes nothing |
| CreateTask.MakeContext | nb_cli_plugin_webui/api/routes/project/project.py:47-60 | the template is "bootstrap" or "simple" by the flag, and use_src is set exactly when the project is not bootstrap |
| CreateTask.Packages | nb_cli_plugin_webui/api/routes/project/project.py:142-147 | pip receives "nonebot2", then the driver links, then the adapter links, each in request order |
| CreateTask.ProjectDirLayout | nb_cli_plugin_webui/api/routes/project/project.py:62-63 | the project lives at the base directory, then project_dir's components, then the dashed name |
| CreateTask.DirTextReadsBack | nb_cli_plugin_webui/api/routes/project/project.py:62-63 | the "Project Dir:" text is `(BASE_DIR / project_dir / name).absolute()`: it reads back as the absolute project directory, the working directory's parts in front when the directory is relative |
| CreateTask.BannerLeads | nb_cli_plugin_webui/api/routes/project/project.py:88-96 | whatever the effects, the task's log opens with "Processing at 3s...", the project name as submitted and the project directory text |
| CreateTask.Create | nb_cli_plugin_webui/api/routes/project/project.py:62-173 | the log opens with "Processing at 3s...", the submitted name and "Project Dir: " plus the absolute text of `BASE_DIR / project_dir / name`; pip is called exactly when generation and venv creation passed; a record exists only after every earlier step passed and holds the new id, the dashed name and that directory; completion happens exactly when ENVIRONMENT=prod was written after the record |
| CreateTask.CreateSucceeds | nb_cli_plugin_webui/api/routes/project/project.py:160-173 | a successful creation logs the banner, the step lines and pip's output, then "✨ Done!" after the record and the .env write; pip's exit code plays no part |
| CreateTask.CreateFails | nb_cli_plugin_webui/api/routes/project/project.py:70-151 | a failing generate, venv or pip step logs one ERROR(text), then the two cleanup entries only if rmtree succeeded; no record, no .env, no "✨ Done!" |
| CreateTask.SubmitCreate | nb_cli_plugin_webui/api/routes/project/project.py:65-67 | the reply carries the key that was registered with its eviction queued, and the context and directory use the dashed name |
| CreateTask.SubmittedTaskRecordsDir | nb_cli_plugin_webui/api/routes/project/project.py:62-67 | the task started for a submission records the directory the submission computed, and prints it made absolute |
| Instances.VenvDirOnWindows | nb_cli_plugin_webui/api/routes/project/project.py:245-247 | on Windows `project_dir / Path(".venv\\Scripts")` is the venv script directory |
| Instances.VenvDirAsWrittenOnPosix | nb_cli_plugin_webui/api/routes/project/project.py:248-250 | elsewhere `Path(".venv\\bin")` is the single component ".venv\bin", not the venv's bin directory |
| Instances.EnvWith | nb_cli_plugin_webui/api/routes/project/project.py:243-250 | the environment is a copy of the server's with TERM="xterm-color" and the given entry put before PATH with ";" on win32 and ":" elsewhere; every other variable is unchanged; a missing PATH raises |
| Instances.RunEnv | nb_cli_plugin_webui/api/routes/project/project.py:243-250 | as written: that copy with the absolute text of `project_dir / Path(".venv\\Scripts")` on win32 and of `project_dir / Path(".venv\\bin")` elsewhere as the new first PATH entry |
| Instances.EntryReadsBack | nb_cli_plugin_webui/api/routes/project/project.py:247-250 | the new first PATH entry is exactly the text of the path, it reads back as that path, then the separator, then the old PATH |
| Instances.AsWrittenEntryOnPosix | nb_cli_plugin_webui/api/routes/project/project.py:248-250 | as written on POSIX the absolute venv path is the project directory followed by the single part ".venv\bin", which differs from the venv's bin directory |
| Instances.RunEnvAsWrittenOnPosix | nb_cli_plugin_webui/api/routes/project/project.py:248-250 | as written on POSIX the first PATH entry reads back as the absolute project directory followed by ".venv\bin", not as the venv's bin directory, and the old PATH follows ":" |
| Instances.RunEnvOnWindows | nb_cli_plugin_webui/api/routes/project/project.py:245-247 | on win32 the environment as written is the intended one |
| Instances.RunEnvIntended | nb_cli_plugin_webui/api/routes/project/project.py:243-250 | corrected: the same copy with the venv's script directory (".venv" then "Scripts" on win32, "bin" elsewhere) made absolute as the new first PATH entry |
| Instances.RunEnvPathNamesVenv | nb_cli_plugin_webui/api/routes/project/project.py:243-250 | corrected: the new first PATH entry reads back as the absolute project directory followed by ".venv" and the script directory, and the old PATH follows the separator |
| Instances.NewProc | nb_cli_plugin_webui/api/routes/project/project.py:264-296 | a new process runs the project's python, or the default python when it has none; it runs bot.py when that file exists and `-c` with the generated script otherwise; it has cwd project_dir, the given environment and log rotation 5*60 = 300 seconds, and is not yet started |
| Instances.RunProject | nb_cli_plugin_webui/api/routes/project/project.py:232-301 | unknown project → 400; a missing PATH raises; registered and running → 400 with no start; registered and stopped → the same process started; unregistered → a new process with the as-written environment and log rotation 300, its log registered under the id, then started; other processes unchanged |
| Instances.StopProject | nb_cli_plugin_webui/api/routes/project/project.py:304-314 | 400 exactly when no process is registered for the id; otherwise only that process stops |
| Instances.WriteProject | nb_cli_plugin_webui/api/routes/project/project.py:317-340 | 400 when no process is registered; a running process gets content plus `os.linesep` ("\r\n" on Windows, "\n" elsewhere) on stdin; a failed stdin write answers 400; a stopped one gets args (content,), is restarted, and the detail is None; other processes and the logs are untouched |
| Instances.StopThenRunReuses | nb_cli_plugin_webui/api/routes/project/project.py:254-262 | stop followed by run restarts the same registered process with its command line, directory, environment and log |
| Instances.StopThenWriteRestarts | nb_cli_plugin_webui/api/routes/project/project.py:336-338 | writing to a stopped instance restarts it with the content as its only argument |
| Instances.AnyRunning | nb_cli_plugin_webui/api/routes/project/project.py:216-222 | the `for ... else` scan finds a process exactly when one with the project's id is registered and running |
| Instances.ListProjects | nb_cli_plugin_webui/api/routes/project/project.py:200-227 | the result is keyed exactly by the records' project ids; each shows is_running exactly when its process runs; the last record with an id is the one shown; a failed read gives an empty result |
| IntParse.ParseInt | nb_cli_plugin_webui/app/config.py:106 | `int(s)` fails on blank text; for texts of at most 4300 digits, text that strips to a digit first is accepted exactly when it is digits separated by single underscores, and so is text that strips to a sign followed by such digits; a result ends in a digit and is negative only after a leading '-' |
| IntParse.ParseUnsigned | nb_cli_plugin_webui/app/config.py:106 | text that strips to unsigned digits t reads as the value of t when t is valid, and fails otherwise |
| IntParse.ParseSigned | nb_cli_plugin_webui/app/config.py:106 | text that strips to '+' or '-' followed by t reads as the value of t, negated after '-', when t is valid, and fails otherwise |
| IntParse.PlusSignedPort | nb_cli_plugin_webui/app/config.py:104-108 | "+80" reads as 80 and the port prompt accepts it |
| IntParse.MinusZeroPadded | nb_cli_plugin_webui/app/config.py:104-108 | "-007" reads as -7 and the port prompt rejects it |
| IntParse.ParseIntText | nb_cli_plugin_webui/app/config.py:106 | `int(str(n)) == n` for every integer n of at most 4300 digits |
| IntParse.PortAcceptedText | nb_cli_plugin_webui/app/config.py:104-113 | the port loop accepts the decimal text of n exactly when 0 <= n <= 65535 |
| IntParse.PaddedPortAccepted | nb_cli_plugin_webui/app/config.py:106 | `int` ignores surrounding whitespace: " 80\n" reads as 80 |
| IntParse.UnderscoredPort | nb_cli_plugin_webui/app/config.py:106 | single underscores between digits are accepted: "1_0" reads as 10 |
| IntParse.DoubleUnderscoreRejected | nb_cli_plugin_webui/app/config.py:106 | "1__0" raises ValueError, so the port loop asks again |
| IntParse.DefaultPortAccepted | nb_cli_plugin_webui/app/config.py:98 | the default port "12345" reads as 12345 and passes the port check |
| Config.FieldNamed | nb_cli_plugin_webui/app/config.py:30-52 | a name finds the field whose attribute name it is, and nothing when no field has that name |
| Config.NameInjective | nb_cli_plugin_webui/app/config.py:30-52 | distinct fields have distinct names |
| Config.DefaultsWellTyped | nb_cli_plugin_webui/app/config.py:31-52 | `AppConfig()` holds every field, each at a value of its declared type |
| Config.CheckNecessaryMeaning | nb_cli_plugin_webui/app/config.py:57-60 | `check_necessary_config` holds exactly when base_dir, secret_key, hashed_token and salt are all non-empty, so the defaults fail it |
| Config.Assign | nb_cli_plugin_webui/cli.py:182 | `setattr` sets that field only, and keeps the config well typed when the value has the field's type |
| Config.ResetToken | nb_cli_plugin_webui/app/config.py:62-64 | `reset_token` puts the fresh salt in place, sets hashed_token to hash(salt ++ token), and changes no other field |
| Config.ResetThenLogin | nb_cli_plugin_webui/app/auth/router.py:17-20 | after a reset the login check accepts the new token, because both put the salt before the token |
| Config.LoginAccepts | nb_cli_plugin_webui/app/auth/router.py:17-20 | login accepts a token exactly when the verifier accepts the plain salt followed by the token against the stored hashed_token |
| Config.Encode | nb_cli_plugin_webui/app/config.py:23-27 | a secret is written as its plain text (`get_secret_value`), strings, bools and ints as themselves, and a list as the array of its strings |
| Config.ToJson | nb_cli_plugin_webui/app/config.py:54-55 | `to_json` writes every field under its name in declaration order, secrets as their plain text |
| Config.DecodeField | nb_cli_plugin_webui/app/config.py:171 | a field whose key is present in the file reads as a value of its declared type, or the file is rejected |
| Config.BoolText | nb_cli_plugin_webui/app/config.py:171 | pydantic reads a string as False exactly when its lower case is one of 0, off, f, false, n, no and as True exactly when it is one of 1, on, t, true, y, yes |
| Config.BoolTextIgnoresCase | nb_cli_plugin_webui/app/config.py:171 | the reading of a bool does not depend on letter case |
| Config.ParseConfig | nb_cli_plugin_webui/app/config.py:171 | `parse_file` succeeds exactly when every field decodes, and then yields a well-typed config holding each decoded value |
| Config.LookupToJson | nb_cli_plugin_webui/app/config.py:54-55 | in the written file each field's name finds that field's value |
| Config.ParseDecoded | nb_cli_plugin_webui/app/config.py:171 | an object in which every field decodes to c's value reads as c |
| Config.JsonRoundTrip | nb_cli_plugin_webui/app/config.py:23-27 | the file `to_json` writes reads back at startup as the same config, secrets included |
| Config.EmptyFileGivesDefaults | nb_cli_plugin_webui/app/config.py:31-52 | a file holding `{}` reads as the defaults |
| Config.FirstAccepted | nb_cli_plugin_webui/app/config.py:104-113 | a prompt loop stops at the first accepted input, every earlier one having been rejected, and keeps asking when all inputs are rejected |
| Config.Accepted | nb_cli_plugin_webui/app/config.py:127-134 | the value a prompt loop settles on is the first accepted input, every earlier one rejected; there is none exactly when all inputs are rejected |
| Config.ChooseToken | nb_cli_plugin_webui/app/config.py:76-89 | a generated token is used as is; otherwise the token is the first entered one that passes the complexity check, and there is none exactly when every entry fails it |
| Config.SetupConfig | nb_cli_plugin_webui/app/config.py:154-166 | the written config is well typed, holds the entered base_dir, host and port, the fresh secret key and salt, and hash(salt ++ token), with every other field at its default |
| Config.GenerateConfig | nb_cli_plugin_webui/app/config.py:71-167 | the config is written exactly when a token, a port (with a custom server) and a directory were settled and the user confirmed; it is SetupConfig of the settled directory, host, port and token, its port parses into 0..65535, its directory is non-empty and absolute, and the file is what `to_json` writes; declining writes nothing |
| Config.SetupTokenLogsIn | nb_cli_plugin_webui/app/config.py:154-167 | the token shown at setup logs in, the written file reads back as written, and it passes the completeness check when the generators gave non-empty values |
| Config.FreshConfigLogsIn | nb_cli_plugin_webui/app/config.py:154-167 | a well-typed config holding the fresh salt, key and hash(salt ++ token) accepts the token and reads back; with non-empty values and directory it passes the completeness check |
| Cli.RunServer | nb_cli_plugin_webui/cli.py:75-88 | an empty host uses Config.host; no port or port 0 uses int(Config.port) unchecked (for a port text of at most 4300 digits); an explicit nonzero port serves exactly when it lies in 0..65535 |
| Cli.ZeroPortUsesConfig | nb_cli_plugin_webui/cli.py:77-78 | `--port 0` behaves exactly like no port |
| Cli.SetupConfigServes | nb_cli_plugin_webui/cli.py:75-78 | with a config the setup wrote, `run` with no options serves on the configured host and a valid port |
| Cli.ServesOnAcceptedPort | nb_cli_plugin_webui/cli.py:75-78 | a config whose port text passed the setup's port check starts the server with no options on that port, within 0..65535 |
| Cli.SettingToken | nb_cli_plugin_webui/cli.py:93-118 | the command saves exactly when a token was chosen, and then writes the reset config |
| Cli.SettingTokenLogsIn | nb_cli_plugin_webui/cli.py:117-118 | the new token logs in, and the rewritten file reads back as the updated config |
| Cli.DictItems | nb_cli_plugin_webui/cli.py:127 | `Config.dict().items()` lists every field's name with its value in declaration order |
| Cli.Listed | nb_cli_plugin_webui/cli.py:127-134 | every printed pair is an input pair with a key that is neither disabled nor "server", or comes from a "server" dict; every such input pair, and every entry of every "server" dict, is printed |
| Cli.DisabledNames | nb_cli_plugin_webui/cli.py:121 | the disabled keys are exactly the names of secret_key, hashed_token and salt |
| Cli.NoServerField | nb_cli_plugin_webui/cli.py:130-133 | no field is named "server", so that branch never runs on a config |
| Cli.DictItemsMeaning | nb_cli_plugin_webui/cli.py:127 | a pair of `dict()` is exactly a field name with that field's value |
| Cli.ListConfigFilters | nb_cli_plugin_webui/cli.py:126-134 | `list_config` prints exactly the pairs of `dict()` whose key is not disabled |
| Cli.ListConfigShows | nb_cli_plugin_webui/cli.py:121-134 | `list_config` prints every field except secret_key, hashed_token and salt with its value, and nothing else |
| Cli.SettableMeaning | nb_cli_plugin_webui/cli.py:164-177 | a key is accepted exactly when it names a field other than the three disabled ones |
| Cli.SettableIsNamed | nb_cli_plugin_webui/cli.py:164-177 | an accepted key names a field and is not disabled |
| Cli.NamedIsSettable | nb_cli_plugin_webui/cli.py:164-177 | a key naming a field other than the disabled ones is accepted |
| Cli.Setting | nb_cli_plugin_webui/cli.py:151-183 | a disabled key is refused, a key outside the listable set is refused, and otherwise the field is assigned and the file is written once with the new config |
| Cli.SettingConfigAsWritten | nb_cli_plugin_webui/cli.py:179-183 | as written, an accepted key always ends up holding the raw setting string, debug included |
| Cli.SettingConfig | nb_cli_plugin_webui/cli.py:151-183 | corrected: debug receives `setting.lower() == "true"` and any other accepted key the raw string; nothing else changes and the file holds the new config |
| Cli.DisabledIgnoresValue | nb_cli_plugin_webui/cli.py:156-162 | a disabled key is refused before the value is asked for: the outcome does not depend on the value |
| Cli.ReloadOthers | nb_cli_plugin_webui/cli.py:182-183 | after one assignment is written, every other field reads back unchanged |
| Cli.ReloadRejects | nb_cli_plugin_webui/cli.py:182-183 | a file written after assigning a value its field cannot read is rejected at the next start |
| Cli.ReloadAccepts | nb_cli_plugin_webui/cli.py:182-183 | a file written after one assignment reads back with the coerced value in that field and the others unchanged |
| Cli.DebugAsWrittenBreaksReload | nb_cli_plugin_webui/cli.py:179-183 | as written, `-i debug -s abc` saves the string "abc" as debug, and the next start cannot read the file |
| Cli.DebugAbcSaved | nb_cli_plugin_webui/cli.py:179-183 | as written, `-i debug -s abc` assigns the string "abc" to debug, changes nothing else and writes that config |
| Cli.AbcIsNotBool | nb_cli_plugin_webui/app/config.py:171 | pydantic cannot read "abc" as a bool |
| Cli.DebugIntendedReloads | nb_cli_plugin_webui/cli.py:179-180 | corrected, setting debug saves a bool and the file reads back as saved |
| Cli.StringSettingReloads | nb_cli_plugin_webui/cli.py:182-183 | setting base_dir, host, port or log_level saves the text and the file reads back as saved |
| ExtensionStore.AssignClass | frontend/src/store/extensionStore.ts:25-27 | `assignClass` sets choiceClass and nothing else |
| ExtensionStore.SwitchNavVisible | frontend/src/store/extensionStore.ts:149-151 | `switchNavVisible` negates sideNavShow and nothing else |
| ExtensionStore.SwitchTwice | frontend/src/store/extensionStore.ts:149-151 | two toggles restore the store |
| ExtensionStore.TurnPage | frontend/src/store/extensionStore.ts:29-39 | `turnPage` changes only nowPage |
| ExtensionStore.TurnPageInRange | frontend/src/store/extensionStore.ts:29-39 | with 0 <= p < totalPage the page becomes p |
| ExtensionStore.TurnPageClamps | frontend/src/store/extensionStore.ts:30-38 | with totalPage >= 0 a negative page gives 0 and a page at or past totalPage gives totalPage itself |
| ExtensionStore.TurnPageSettles | frontend/src/store/extensionStore.ts:29-39 | with totalPage >= 0 the page lands in [0, totalPage] and turning to it again changes nothing |
| ExtensionStore.NegativeTotalEscapes | frontend/src/store/extensionStore.ts:36-38 | with a negative totalPage the page can land below 0 |
| ExtensionStore.Settle | frontend/src/store/extensionStore.ts:47-62 | settling a request clears `requesting`; a page replaces data and both totals; a failure leaves them and shows one toast with the detail or the message |
| ExtensionStore.Fetch | frontend/src/store/extensionStore.ts:45-62 | one request is issued and its reply settles the store |
| ExtensionStore.UpdateData | frontend/src/store/extensionStore.ts:41-106 | at most one request, chosen by choiceClass among plugin, adapter and driver, for the current page and "search input non-empty"; any other class issues none and leaves requesting true |
| ExtensionStore.UpdateDataBySearch | frontend/src/store/extensionStore.ts:108-128 | exactly one search request with the class and input, settled like a listing |
| ExtensionStore.Refresh | frontend/src/store/extensionStore.ts:130-147 | `refresh` issues one request and ends with requesting false, the data untouched, and a toast only on failure |
| ExtensionStore.FetchFlags | frontend/src/store/extensionStore.ts:108-128 | around a listing or search, requesting ends false; success copies data, totalPage and totalItem from the reply; failure leaves the store as it was; nothing else changes |

## Left out

- Concurrency and timing. `asyncio.sleep`, `create_task` and `call_later` are not modelled as such. A detached task is a function run to completion. The timer callbacks are an explicit eviction queue; because every delay is 600 seconds, they fire in the order they were scheduled.
- Process supervision and log storage internals. `CustomProcessor`, `ProcessManager` and `LoggerStorage` are not part of this model. A process is a record with a running flag, and a log is a sequence of entries.
- `call_pip_install` and `call_pip_uninstall` rebind the task's `log` to the storage they return (project.py:142, module.py:73 and 159). The model takes that storage to be the one passed in.
- External operations are abstract outcomes or parameters: pip, the project generator, venv creation, `rmtree`, `is_file`, `is_dir`, `get_default_python`, `generate_run_script`, the salted hash and its verifier, `generate_complexity_string` and the token complexity check. Their internals are not part of this model.
- Project template variables. The `drivers` and `adapters` JSON strings in the template context (project.py:49-56) are not modelled; only the package list and the use_src flag are.
- The delete endpoint (project.py:183-197), the interactive command menu (cli.py:19-51) and `clear` (cli.py:186-200) are outside the modelled core. They only remove files or dispatch to the modelled commands.
- Startup handling of the config file (config.py:170-177) is not modelled: the exit on an invalid file and the call of the setup when the file is missing. What the file reads as is modelled by `ParseConfig`.
- Prompts are sequences of given answers. When every answer is rejected the model reports that the loop is still asking; it does not model an endless prompt.
- pathlib is reduced to rooted and relative paths of components. Windows drive letters, UNC paths, the POSIX "//" root (pathlib keeps "//srv", the model reads it as "/srv"), ".." and `resolve()` are not modelled, and `absolute()` is a join with the working directory.
- Windows treats environment variable names case-insensitively; the model does not.
- `int()` is modelled on ASCII text only. Unicode digits and Unicode whitespace are not modelled.
- IntParse.ParseInt: Python's integer string conversion length limit is not modelled. Python 3.11 and later, like the 3.7.14, 3.8.14, 3.9.14 and 3.10.7 updates, raise ValueError when `int()` reads more than 4300 decimal digits; the model treats the conversion as unbounded. The port prompt (config.py:104-113) rejects such text either way.
- IntParse.ParseIntText: `str(n)` raises ValueError on those interpreters when n has more than 4300 digits. The round trip is stated for every integer, so it holds as promised only up to that length.
- Cli.RunServer: a configured port text of more than 4300 digits makes `int(Config.port)` (cli.py:78) raise on those interpreters; the model serves on its value instead.
- Config.DecodeField: models pydantic v1's reading of a string as a bool or an int, and exact-type values. It rejects the other coercions pydantic performs: numbers to strings, bools to ints, numbers to bools. It also rejects lists holding anything other than strings in `allowed_origins`.
- The JSON file is a JSON value tree. Text encoding, escaping and key order within the text are not modelled.
- Frontend numbers are integers. NaN and fractional pages are not modelled, and neither is a `detail` missing from an error response.
- ExtensionStore.UpdateData: while one request is awaited, a user action could change choiceClass and a later test could then issue a second request. Only the sequential reading is modelled.
- Coloured output, i18n strings, opening the web browser and starting the server are left out.
- `get_description` (config.py:66-68) returns documentation text only and is not modelled.
- The JWT helper is outside the modelled core. Note that nb_cli_plugin_webui/utils/security/jwt.py:28 passes `timedelta(EXPIRE_SECONDS)`, which is a number of days, not seconds.

## Findings

| source | as written | input that shows it | evidently intended | confidence | as-written member | corrected member |
|---|---|---|---|---|---|---|
| nb_cli_plugin_webui/api/routes/project/project.py:249 | `project_dir / Path(".venv\\bin")`. Outside Windows the backslash is an ordinary character, so the path ends in one component named `.venv\bin` | a project in /srv/bot on Linux: PATH gets `/srv/bot/.venv\bin:` in front, a directory that does not exist | `.venv/bin`, the venv's script directory, as the Windows branch gets with `.venv\Scripts` | high, not executed | Instances.RunEnvAsWrittenOnPosix | Instances.RunEnvPathNamesVenv |
| nb_cli_plugin_webui/cli.py:179-182 | for item "debug", line 180 stores `setting.lower() in ["true", "True"]`, and line 182 then overwrites it with the raw string | `nb ui setting-config -i debug -s abc`: config.json gets `"debug": "abc"` and the next start rejects the file as invalid | debug holds the boolean computed at line 180 (false here) | high, not executed | Cli.DebugAsWrittenBreaksReload | Cli.DebugIntendedReloads |

=== FILE: base.dfy ===
/** Optional values and results with an error, shared by every module. */
module Base {

  datatype Option<+T> = None | Some(value: T) {
    function GetOr(default: T): T
    {
      match this
      case Some(v) => v
      case None => default
    }
  }

  datatype Result<+T, +E> = Success(value: T) | Failure(error: E)
}

=== FILE: classify.dfy ===
/**
 * Module-type classification: the install and uninstall tasks search the
 * package link for the regular expression `nonebot-(.*?)-` and take its
 * group. Python's `re.search` returns the leftmost match, and the lazy
 * `.*?` makes the group as short as possible; `.` does not match a newline.
 */
module Classify {
  import opened Base

  const Prefix: string := "nonebot-"

  /**
   * The pattern matches s starting at i with its closing '-' at j, so the
   * group is s[i + |Prefix| .. j].
   */
  predicate MatchesAt(s: string, i: int, j: int)
  {
    && 0 <= i && i + |Prefix| <= j < |s|
    && s[i..i + |Prefix|] == Prefix
    && s[j] == '-'
    && forall k :: i + |Prefix| <= k < j ==> s[k] != '\n'
  }

  /** (i, j) comes no later than (i', j'): leftmost start first, then shortest group. */
  predicate NoLater(i: int, j: int, i': int, j': int)
  {
    i < i' || (i == i' && j <= j')
  }

  /** The first '-' at or after k, unless a newline comes first. */
  function GroupEnd(s: string, k: nat): (r: Option<nat>)
    ensures r.Some? ==> k <= r.value < |s| && s[r.value] == '-'
    ensures r.Some? ==> forall m :: k <= m < r.value ==> s[m] != '-' && s[m] != '\n'
    ensures r.None? ==> forall j :: k <= j < |s| && s[j] == '-' ==> exists m :: k <= m < j && s[m] == '\n'
    decreases |s| - k
  {
    if k >= |s| then None
    else if s[k] == '-' then Some(k)
    else if s[k] == '\n' then None
    else GroupEnd(s, k + 1)
  }

  /** `re.search` from position i onwards: the first match in the order NoLater. */
  function SearchFrom(s: string, i: nat): (r: Option<(nat, nat)>)
    ensures r.Some? ==> i <= r.value.0 && MatchesAt(s, r.value.0, r.value.1)
    ensures r.Some? ==> forall i', j' :: i <= i' && MatchesAt(s, i', j') ==> NoLater(r.value.0, r.value.1, i', j')
    ensures r.None? ==> forall i', j' :: i <= i' ==> !MatchesAt(s, i', j')
    decreases |s| - i
  {
    if i + |Prefix| > |s| then None
    else if s[i..i + |Prefix|] == Prefix && GroupEnd(s, i + |Prefix|).Some? then
      Some((i, GroupEnd(s, i + |Prefix|).value))
    else SearchFrom(s, i + 1)
  }

  /** `_match.group(1)` of `re.search(r"nonebot-(.*?)-", link)`, or None when nothing matches. */
  function LinkGroup(link: string): (r: Option<string>)
    ensures r.None? <==> forall i, j :: !MatchesAt(link, i, j)
    ensures r.Some? ==> exists i, j :: MatchesAt(link, i, j) && r.value == link[i + |Prefix|..j]
    ensures r.Some? ==> exists i, j :: && MatchesAt(link, i, j) && r.value == link[i + |Prefix|..j]
                                       && forall i', j' :: MatchesAt(link, i', j') ==> NoLater(i, j, i', j')
    ensures r.Some? ==> forall k :: 0 <= k < |r.value| ==> r.value[k] != '-' && r.value[k] != '\n'
  {
    var found := SearchFrom(link, 0);
    if found.None? then None
    else
      var i := found.value.0;
      var j := found.value.1;
      var g := link[i + |Prefix|..j];
      assert MatchesAt(link, i, j) && g == link[i + |Prefix|..j];
      GroupIsShortest(link, i, j);
      assert forall k :: 0 <= k < |g| ==> g[k] == link[i + |Prefix| + k];
      Some(g)
  }

  /** The first match's group holds no '-': a '-' inside it would close an earlier match. */
  lemma GroupIsShortest(s: string, i: nat, j: nat)
    requires MatchesAt(s, i, j)
    requires forall j' :: MatchesAt(s, i, j') ==> j <= j'
    ensures forall m :: i + |Prefix| <= m < j ==> s[m] != '-'
  {
    forall m | i + |Prefix| <= m < j
      ensures s[m] != '-'
    {
      if s[m] == '-' {
        assert MatchesAt(s, i, m);
      }
    }
  }

  /** The kinds of module the tasks know how to record in the project config. */
  datatype Kind = PluginKind | AdapterKind | DriverKind | OtherKind(name: string)

  function KindOf(group: string): (k: Kind)
    ensures k == PluginKind <==> group == "plugin"
    ensures k == AdapterKind <==> group == "adapter"
    ensures k == DriverKind <==> group == "driver"
    ensures k.OtherKind? ==> k.name == group
  {
    if group == "plugin" then PluginKind
    else if group == "adapter" then AdapterKind
    else if group == "driver" then DriverKind
    else OtherKind(group)
  }

  /** The classification uninstall always uses, and install uses without "~". */
  function LinkKind(link: string): (r: Option<Kind>)
    ensures r.None? <==> forall i, j :: !MatchesAt(link, i, j)
    ensures r.Some? ==> r == Some(KindOf(LinkGroup(link).value))
  {
    match LinkGroup(link)
    case None => None
    case Some(g) => Some(KindOf(g))
  }

  /** Install's classification: a module name containing "~" is a built-in driver. */
  function InstallKind(moduleName: string, link: string): (r: Option<Kind>)
    ensures '~' in moduleName ==> r == Some(DriverKind)
    ensures '~' !in moduleName ==> r == LinkKind(link)
  {
    if '~' in moduleName then Some(DriverKind) else LinkKind(link)
  }

  /** An adapter link classifies by the text between "nonebot-" and the next '-'. */
  lemma AdapterLinkExample()
    ensures LinkKind("nonebot-adapter-onebot") == Some(AdapterKind)
  {
    var s := "nonebot-adapter-onebot";
    assert MatchesAt(s, 0, 15);
    var r := SearchFrom(s, 0).value;
    assert r.0 == 0;
    assert r.1 == 15 by {
      assert 8 <= r.1 <= 15 && s[r.1] == '-';
      assert forall m :: 8 <= m < 15 ==> s[m] != '-';
    }
    assert s[8..15] == "adapter";
  }

  /** The shortest group wins: only the text up to the first '-' is taken. */
  lemma PluginLinkExample()
    ensures LinkKind("nonebot-plugin-status-x") == Some(PluginKind)
  {
    var s := "nonebot-plugin-status-x";
    assert MatchesAt(s, 0, 14);
    var r := SearchFrom(s, 0).value;
    assert r.0 == 0;
    assert r.1 == 14 by {
      assert 8 <= r.1 <= 14 && s[r.1] == '-';
      assert forall m :: 8 <= m < 14 ==> s[m] != '-';
    }
    assert s[8..14] == "plugin";
  }

  /** The link of a built-in driver such as "nonebot2[fastapi]" does not classify. */
  lemma BuiltinDriverLinkExample()
    ensures LinkKind("nonebot2[fastapi]") == None
  {
    var s := "nonebot2[fastapi]";
    assert forall j :: 0 <= j < |s| ==> s[j] != '-';
  }
}

=== FILE: cli.dfy ===
/**
 * The `nb ui` commands that read or change the configuration: `run`'s
 * host and port choice, `setting_token`, `list_config` and `setting_config`.
 */
module Cli {
  import opened Base
  import opened IntParse
  import opened Config

  /** What `run` does: start the server, or refuse. */
  datatype RunOutcome =
    | Serve(host: string, port: int)
    | PortOutOfRange  // an explicit port outside 0..65535: a message, no server
    | BadConfigPort   // `int(Config.port)` raises

  /**
   * `run`. None stands for an option not given. Python's `not` treats the
   * empty host and port 0 as not given.
   */
  function RunServer(c: AppConfig, host: Option<string>, port: Option<int>): (r: RunOutcome)
    requires Complete(c)
    ensures r.Serve? && (host == None || host == Some("")) ==> r.host == TextOf(c[Host])
    ensures r.Serve? && host.Some? && host.value != "" ==> r.host == host.value
    ensures port == None || port == Some(0) ==>
              (r.BadConfigPort? <==> ParseInt(TextOf(c[Port])).None?) &&
              (r.Serve? ==> Some(r.port) == ParseInt(TextOf(c[Port])))
    ensures port.Some? && port.value != 0 ==>
              (r.Serve? <==> 0 <= port.value <= 65535) && (r.Serve? ==> r.port == port.value) && !r.BadConfigPort?
  {
    var h := if host == None || host == Some("") then TextOf(c[Host]) else host.value;
    if port == None || port == Some(0) then
      match ParseInt(TextOf(c[Port]))
      case None => BadConfigPort
      case Some(p) => Serve(h, p)
    else if port.value < 0 || port.value > 65535 then PortOutOfRange
    else Serve(h, port.value)
  }

  /** Port 0 on the command line is read as "not given": the configured port is used, unchecked. */
  lemma ZeroPortUsesConfig(c: AppConfig, host: Option<string>)
    requires Complete(c)
    ensures RunServer(c, host, Some(0)) == RunServer(c, host, None)
  {
  }

  /** A config written by the first-run setup starts the server on a valid port when no options are given. */
  lemma SetupConfigServes(a: Answers, tokenOk: string -> bool, isAbsDir: string -> bool, gen: Fresh,
                          hash: string -> string, w: SetupResult)
    requires w == GenerateConfig(a, tokenOk, isAbsDir, gen, hash) && w.Written?
    ensures var r := RunServer(w.config, None, None);
            r.Serve? && 0 <= r.port <= 65535 && r.host == TextOf(w.config[Host])
  {
    ServesOnAcceptedPort(w.config);
  }

  /** A complete config whose port text was accepted at setup starts the server on that port. */
  lemma ServesOnAcceptedPort(c: AppConfig)
    requires WellTyped(c) && c[Port].VStr? && PortAccepted(c[Port].s)
    ensures var r := RunServer(c, None, None);
            r.Serve? && 0 <= r.port <= 65535 && r.host == TextOf(c[Host])
  {
    assert TextOf(c[Port]) == c[Port].s;
  }

  /** What `setting_token` does. */
  datatype TokenOutcome =
    | TokenSaved(config: AppConfig, token: string, file: Json)
    | TokenPending  // every token entered was rejected: it keeps prompting

  /** `setting_token`: choose a token, reset it in the config, and write the file. */
  function SettingToken(c: AppConfig, a: TokenAnswers, tokenOk: string -> bool, newSalt: string,
                        hash: string -> string): (r: TokenOutcome)
    requires Complete(c)
    ensures r.TokenSaved? <==> ChooseToken(a, tokenOk).Some?
    ensures r.TokenSaved? ==> Some(r.token) == ChooseToken(a, tokenOk)
    ensures r.TokenSaved? ==> r.config == ResetToken(c, r.token, newSalt, hash) && r.file == ToJson(r.config)
  {
    match ChooseToken(a, tokenOk)
    case None => TokenPending
    case Some(t) =>
      var c' := ResetToken(c, t, newSalt, hash);
      TokenSaved(c', t, ToJson(c'))
  }

  /** The new token logs in, and the rewritten file reads back as the updated config. */
  lemma SettingTokenLogsIn(c: AppConfig, a: TokenAnswers, tokenOk: string -> bool, newSalt: string,
                           hash: string -> string, verify: (string, string) -> bool)
    requires WellTyped(c)
    requires forall x :: verify(x, hash(x))
    requires SettingToken(c, a, tokenOk, newSalt, hash).TokenSaved?
    ensures var r := SettingToken(c, a, tokenOk, newSalt, hash);
            LoginAccepts(r.config, r.token, verify) && ParseConfig(r.file) == Success(r.config)
  {
    var r := SettingToken(c, a, tokenOk, newSalt, hash);
    ResetThenLogin(c, r.token, newSalt, hash, verify);
    JsonRoundTrip(r.config);
  }

  /** `CONFIG_DISABLED_LIST`: keys that are never listed or set. */
  const DisabledKeys: seq<string> := ["hashed_token", "salt", "secret_key"]

  /** `Config.dict().items()`. */
  function DictItems(c: AppConfig): (items: seq<(string, Value)>)
    requires Complete(c)
    ensures |items| == |Fields|
    ensures forall i :: 0 <= i < |Fields| ==> items[i] == (Name(Fields[i]), c[Fields[i]])
  {
    seq(|Fields|, i requires 0 <= i < |Fields| => (Name(Fields[i]), c[Fields[i]]))
  }

  /** The loop assumes a "server" entry holds a dict. */
  predicate ServerIsDict(items: seq<(string, Value)>)
  {
    forall i :: 0 <= i < |items| && items[i].0 == "server" ==> items[i].1.VDict?
  }

  /** An entry that names a "server" dict holding the pair. */
  predicate FromServer(items: seq<(string, Value)>, p: (string, Value))
  {
    exists i :: 0 <= i < |items| && items[i].0 == "server" && items[i].1.VDict? && p in items[i].1.entries
  }

  /**
   * The pairs `list_config` prints, in order: disabled keys are skipped and
   * a "server" dict is printed as its own entries.
   */
  function Listed(items: seq<(string, Value)>): (r: seq<(string, Value)>)
    requires ServerIsDict(items)
    ensures forall p :: p in r ==> (p in items && p.0 !in DisabledKeys && p.0 != "server") || FromServer(items, p)
    ensures forall p :: p in items && p.0 !in DisabledKeys && p.0 != "server" ==> p in r
    ensures forall p :: FromServer(items, p) ==> p in r
    decreases |items|
  {
    if |items| == 0 then []
    else
      var (k, v) := items[0];
      var rest := Listed(items[1..]);
      assert forall p :: FromServer(items[1..], p) ==> FromServer(items, p) by {
        forall p | FromServer(items[1..], p)
          ensures FromServer(items, p)
        {
          var i :| 0 <= i < |items[1..]| && items[1..][i].0 == "server" && items[1..][i].1.VDict? && p in items[1..][i].1.entries;
          assert items[i + 1] == items[1..][i];
        }
      }
      assert forall p :: FromServer(items, p) ==> FromServer(items[1..], p) || (k == "server" && v.VDict? && p in v.entries) by {
        forall p | FromServer(items, p)
          ensures FromServer(items[1..], p) || (k == "server" && v.VDict? && p in v.entries)
        {
          var i :| 0 <= i < |items| && items[i].0 == "server" && items[i].1.VDict? && p in items[i].1.entries;
          if i > 0 {
            assert items[1..][i - 1] == items[i];
          }
        }
      }
      if k in DisabledKeys then rest
      else if k == "server" then
        assert forall p :: p in v.entries ==> FromServer(items, p) by {
          forall p | p in v.entries
            ensures FromServer(items, p)
          {
            assert items[0].0 == "server";
          }
        }
        v.entries + rest
      else [(k, v)] + rest
  }

  /** The disabled keys are exactly the names of secret_key, hashed_token and salt. */
  lemma DisabledNames(f: Field)
    ensures Name(f) in DisabledKeys <==> f == SecretKey || f == HashedToken || f == Salt
  {
    match f { case _ => }
  }

  /** `list_config`. */
  function ListConfig(c: AppConfig): seq<(string, Value)>
    requires Complete(c)
  {
    var items := DictItems(c);
    assert ServerIsDict(items) by {
      forall i | 0 <= i < |items| ensures items[i].0 != "server" {
        var _ := FieldNamed("server");
      }
    }
    Listed(items)
  }

  /** No field is named "server", so the "server" branch is never taken on a config. */
  lemma NoServerField(c: AppConfig)
    requires Complete(c)
    ensures forall p :: !FromServer(DictItems(c), p)
  {
    var _ := FieldNamed("server");
  }

  /** The pairs of `dict()` are the fields with their values. */
  lemma DictItemsMeaning(c: AppConfig, p: (string, Value))
    requires Complete(c)
    ensures p in DictItems(c) <==> exists f :: p == (Name(f), c[f])
  {
    var items := DictItems(c);
    if f :| p == (Name(f), c[f]) {
      FieldsListsAll(f);
      var i :| 0 <= i < |Fields| && Fields[i] == f;
      assert items[i] == p;
    }
  }

  /** `list_config` prints exactly the pairs of `dict()` whose key is not disabled. */
  lemma ListConfigFilters(c: AppConfig, p: (string, Value))
    requires Complete(c)
    ensures p in ListConfig(c) <==> p in DictItems(c) && p.0 !in DisabledKeys
  {
    NoServerField(c);
  }

  /** `list_config` prints every field other than secret_key, hashed_token and salt, each with its value, and nothing else. */
  lemma ListConfigShows(c: AppConfig, k: string, v: Value)
    requires Complete(c)
    ensures (k, v) in ListConfig(c) <==>
              exists f :: Name(f) == k && f != SecretKey && f != HashedToken && f != Salt && v == c[f]
  {
    ListConfigFilters(c, (k, v));
    DictItemsMeaning(c, (k, v));
    if (k, v) in ListConfig(c) {
      var f :| (k, v) == (Name(f), c[f]);
      DisabledNames(f);
    }
    if f :| Name(f) == k && f != SecretKey && f != HashedToken && f != Salt && v == c[f] {
      DisabledNames(f);
    }
  }

  /** The keys `setting_config` accepts: the keys of the pairs `list_config` prints. */
  function SettableKeys(c: AppConfig): seq<string>
    requires Complete(c)
  {
    var l := ListConfig(c);
    seq(|l|, i requires 0 <= i < |l| => l[i].0)
  }

  /** A key is settable exactly when it names a field other than the three disabled ones. */
  lemma SettableMeaning(c: AppConfig, k: string)
    requires Complete(c)
    ensures k in SettableKeys(c) <==> FieldNamed(k).Some? && k !in DisabledKeys
  {
    if k in SettableKeys(c) {
      SettableIsNamed(c, k);
    }
    if FieldNamed(k).Some? && k !in DisabledKeys {
      NamedIsSettable(c, k);
    }
  }

  lemma SettableIsNamed(c: AppConfig, k: string)
    requires Complete(c) && k in SettableKeys(c)
    ensures FieldNamed(k).Some? && k !in DisabledKeys
  {
    var l := ListConfig(c);
    var i :| 0 <= i < |l| && SettableKeys(c)[i] == k;
    assert l[i].0 == k;
    ListConfigShows(c, k, l[i].1);
    var f :| Name(f) == k && f != SecretKey && f != HashedToken && f != Salt && l[i].1 == c[f];
    DisabledNames(f);
  }

  lemma NamedIsSettable(c: AppConfig, k: string)
    requires Complete(c) && FieldNamed(k).Some? && k !in DisabledKeys
    ensures k in SettableKeys(c)
  {
    var l := ListConfig(c);
    var f := FieldNamed(k).value;
    DisabledNames(f);
    ListConfigShows(c, k, c[f]);
    var i :| 0 <= i < |l| && l[i] == (k, c[f]);
    assert SettableKeys(c)[i] == k;
  }

  /** What `setting_config` does. */
  datatype SettingOutcome =
    | DisabledKey  // "This config is disabled.": rejected before the value is asked for
    | UnknownKey   // "This config is not exist."
    | Saved(config: AppConfig, file: Json)

  /** The key, from the option or else from the prompt. */
  function ChosenItem(itemArg: string, itemInput: string): string
  {
    if itemArg == "" then itemInput else itemArg
  }

  /**
   * `setting_config` with the assignment a function of the field and the
   * setting; both the code as written and the corrected version share the
   * rest of the command.
   */
  function Setting(c: AppConfig, itemArg: string, itemInput: string, settingArg: string, settingInput: string,
                   assign: (Field, string) -> Value): (r: SettingOutcome)
    requires Complete(c)
    ensures var item := ChosenItem(itemArg, itemInput);
            && (r.DisabledKey? <==> item in DisabledKeys)
            && (r.Saved? <==> item in SettableKeys(c))
            && (r.Saved? ==> FieldNamed(item).Some?)
            && (r.Saved? ==>
                  var f := FieldNamed(item).value;
                  var setting := if settingArg == "" then settingInput else settingArg;
                  r.config == Assign(c, f, assign(f, setting)) && r.file == ToJson(r.config))
  {
    var item := ChosenItem(itemArg, itemInput);
    SettableMeaning(c, item);
    if item in DisabledKeys then DisabledKey
    else
      var setting := if settingArg == "" then settingInput else settingArg;
      if item !in SettableKeys(c) then UnknownKey
      else
        var f := FieldNamed(item).value;
        var c' := Assign(c, f, assign(f, setting));
        Saved(c', ToJson(c'))
  }

  /**
   * The assignment as written: for debug, cli.py:180 first stores the bool
   * `setting.lower() in ["true", "True"]`, and cli.py:182 then overwrites
   * that store with the raw string, so every key ends up holding the string.
   * The overwritten bool leaves no trace, so only the raw string is returned.
   */
  function AssignAsWritten(f: Field, setting: string): (v: Value)
  {
    VStr(setting)
  }

  /** The evident intent: debug receives the bool, every other key the raw string. */
  function AssignIntended(f: Field, setting: string): (v: Value)
    ensures f == Debug ==> v == VBool(Lower(setting) == "true")
    ensures f != Debug ==> v == VStr(setting)
  {
    if f == Debug then VBool(Lower(setting) == "true") else VStr(setting)
  }

  function SettingConfigAsWritten(c: AppConfig, itemArg: string, itemInput: string, settingArg: string,
                                  settingInput: string): (r: SettingOutcome)
    requires Complete(c)
    ensures r.Saved? ==> FieldNamed(ChosenItem(itemArg, itemInput)).Some? && Complete(r.config)
    ensures r.Saved? ==> r.config[FieldNamed(ChosenItem(itemArg, itemInput)).value]
                         == VStr(if settingArg == "" then settingInput else settingArg)
  {
    SettableMeaning(c, ChosenItem(itemArg, itemInput));
    Setting(c, itemArg, itemInput, settingArg, settingInput, AssignAsWritten)
  }

  /** `setting_config`, with the debug assignment as intended. */
  function SettingConfig(c: AppConfig, itemArg: string, itemInput: string, settingArg: string,
                         settingInput: string): (r: SettingOutcome)
    requires Complete(c)
    ensures var item := ChosenItem(itemArg, itemInput);
            var setting := if settingArg == "" then settingInput else settingArg;
            && (r.DisabledKey? <==> item in DisabledKeys)
            && (r.Saved? <==> FieldNamed(item).Some? && item !in DisabledKeys)
            && (r.Saved? ==> Complete(r.config))
            && (r.Saved? ==>
                  var f := FieldNamed(item).value;
                  && r.config[f] == (if f == Debug then VBool(Lower(setting) == "true") else VStr(setting))
                  && (forall g :: g != f ==> r.config[g] == c[g])
                  && r.file == ToJson(r.config))
  {
    SettableMeaning(c, ChosenItem(itemArg, itemInput));
    Setting(c, itemArg, itemInput, settingArg, settingInput, AssignIntended)
  }

  /** A disabled key is refused whatever value was given: the value prompt is never reached. */
  lemma DisabledIgnoresValue(c: AppConfig, itemArg: string, itemInput: string, s1: string, i1: string,
                             s2: string, i2: string)
    requires Complete(c)
    requires ChosenItem(itemArg, itemInput) in DisabledKeys
    ensures SettingConfig(c, itemArg, itemInput, s1, i1) == DisabledKey
    ensures SettingConfig(c, itemArg, itemInput, s1, i1) == SettingConfig(c, itemArg, itemInput, s2, i2)
  {
  }

  /** In the file written after one assignment, every other field reads back as it was. */
  lemma ReloadOthers(c: AppConfig, f: Field, v: Value)
    requires WellTyped(c)
    ensures var es := ToJson(Assign(c, f, v)).entries;
            forall g :: g != f ==> DecodeField(g, Lookup(es, Name(g))) == Some(c[g])
  {
    var c' := Assign(c, f, v);
    forall g: Field | g != f
      ensures DecodeField(g, Lookup(ToJson(c').entries, Name(g))) == Some(c[g])
    {
      LookupToJson(c', g);
      DecodeEncoded(g, c[g]);
    }
  }

  /** A file written after assigning a value its field cannot decode does not read back. */
  lemma ReloadRejects(c: AppConfig, f: Field, v: Value)
    requires WellTyped(c)
    requires DecodeField(f, Some(Encode(v))).None?
    ensures ParseConfig(ToJson(Assign(c, f, v))).Failure?
  {
    LookupToJson(Assign(c, f, v), f);
  }

  /** A file written after assigning a value its field decodes as w reads back with w there and every other field unchanged. */
  lemma ReloadAccepts(c: AppConfig, f: Field, v: Value, w: Value)
    requires WellTyped(c)
    requires DecodeField(f, Some(Encode(v))) == Some(w)
    ensures ParseConfig(ToJson(Assign(c, f, v))) == Success(Assign(c, f, w))
  {
    var c' := Assign(c, f, v);
    var expected := Assign(c, f, w);
    var es := ToJson(c').entries;
    LookupToJson(c', f);
    ReloadOthers(c, f, v);
    forall g ensures DecodeField(g, Lookup(es, Name(g))) == Some(expected[g]) {
      if g != f {
        assert expected[g] == c[g];
      }
    }
    ParseDecoded(es, expected);
  }

  /**
   * As written, `nb ui setting-config -i debug -s abc` saves the string
   * "abc" as debug; the next start cannot read the file back.
   */
  lemma DebugAsWrittenBreaksReload(c: AppConfig)
    requires WellTyped(c)
    ensures var r := SettingConfigAsWritten(c, "debug", "", "abc", "");
            r.Saved? && r.config[Debug] == VStr("abc") && ParseConfig(r.file).Failure?
  {
    DebugAbcSaved(c);
    AbcIsNotBool();
    ReloadRejects(c, Debug, VStr("abc"));
  }

  /** As written, `-i debug -s abc` assigns the string "abc" to debug and nothing else. */
  lemma DebugAbcSaved(c: AppConfig)
    requires WellTyped(c)
    ensures var r := SettingConfigAsWritten(c, "debug", "", "abc", "");
            r.Saved? && r.config == Assign(c, Debug, VStr("abc")) && r.file == ToJson(r.config)
  {
    assert FieldNamed("debug") == Some(Debug);
    SettableMeaning(c, "debug");
  }

  /** The string "abc" is not one of pydantic's bool spellings. */
  lemma AbcIsNotBool()
    ensures DecodeField(Debug, Some(Encode(VStr("abc")))).None?
  {
    assert Lower("abc") == "abc";
    assert BoolText("abc") == None;
  }

  /** Corrected, setting debug saves a bool, and the file reads back as the saved config. */
  lemma DebugIntendedReloads(c: AppConfig, setting: string)
    requires WellTyped(c)
    ensures var r := SettingConfig(c, "debug", "", setting, "");
            r.Saved? && r.config[Debug] == VBool(Lower(setting) == "true") && ParseConfig(r.file) == Success(r.config)
  {
    var _ := FieldNamed("debug");
    SettableMeaning(c, "debug");
    var b := VBool(Lower(setting) == "true");
    ReloadAccepts(c, Debug, b, b);
  }

  /** Two complete configs that agree on every field are equal. */
  lemma SameFields(a: AppConfig, b: AppConfig)
    requires Complete(a) && Complete(b)
    requires forall g :: a[g] == b[g]
    ensures a == b
  {
    assert a.Keys == b.Keys;
  }

  /** Setting one of the string fields base_dir, host, port or log_level saves the text and reads back as saved. */
  lemma StringSettingReloads(c: AppConfig, f: Field, setting: string)
    requires WellTyped(c) && TypeOf(f) == StrType && f != HashedToken
    ensures var r := SettingConfig(c, Name(f), "", setting, "");
            r.Saved? && r.config[f] == VStr(setting) && ParseConfig(r.file) == Success(r.config)
  {
    NameInjective(FieldNamed(Name(f)).value, f);
    DisabledNames(f);
    var r := SettingConfig(c, Name(f), "", setting, "");
    assert FieldNamed(Name(f)) == Some(f);
    assert r.config[f] == VStr(setting);
    SameFields(r.config, Assign(c, f, VStr(setting)));
    ReloadAccepts(c, f, VStr(setting), VStr(setting));
  }
}

=== FILE: config.dfy ===
/**
 * The WebUI's own configuration (AppConfig): its fields and defaults, the
 * completeness check, token reset, the JSON form written to config.json
 * and read back at startup, and the interactive first-run setup.
 */
module Config {
  import opened Base
  import opened IntParse

  /** The fields of AppConfig. */
  datatype Field =
    | BaseDir | Host | Port | Debug | EnableApiDocument | LogLevel
    | SecretKey | HashedToken | Salt | AllowedOrigins
    | ProcessLogDestroySeconds | ExtensionStoreVisibleItems

  /** The fields in declaration order, which is the order of `dict()` and of the JSON file. */
  const Fields: seq<Field> := [
    BaseDir, Host, Port, Debug, EnableApiDocument, LogLevel,
    SecretKey, HashedToken, Salt, AllowedOrigins,
    ProcessLogDestroySeconds, ExtensionStoreVisibleItems]

  /** The attribute name of a field, which is also its JSON key. */
  function Name(f: Field): string
  {
    match f
    case BaseDir => "base_dir"
    case Host => "host"
    case Port => "port"
    case Debug => "debug"
    case EnableApiDocument => "enable_api_document"
    case LogLevel => "log_level"
    case SecretKey => "secret_key"
    case HashedToken => "hashed_token"
    case Salt => "salt"
    case AllowedOrigins => "allowed_origins"
    case ProcessLogDestroySeconds => "process_log_destroy_seconds"
    case ExtensionStoreVisibleItems => "extension_store_visible_items"
  }

  /** The field with a given attribute name, if any. */
  function FieldNamed(s: string): (r: Option<Field>)
    ensures r.Some? ==> Name(r.value) == s
    ensures r.None? ==> forall f :: Name(f) != s
  {
    if s == "base_dir" then Some(BaseDir)
    else if s == "host" then Some(Host)
    else if s == "port" then Some(Port)
    else if s == "debug" then Some(Debug)
    else if s == "enable_api_document" then Some(EnableApiDocument)
    else if s == "log_level" then Some(LogLevel)
    else if s == "secret_key" then Some(SecretKey)
    else if s == "hashed_token" then Some(HashedToken)
    else if s == "salt" then Some(Salt)
    else if s == "allowed_origins" then Some(AllowedOrigins)
    else if s == "process_log_destroy_seconds" then Some(ProcessLogDestroySeconds)
    else if s == "extension_store_visible_items" then Some(ExtensionStoreVisibleItems)
    else None
  }

  /** Distinct fields have distinct names. */
  lemma NameInjective(f: Field, g: Field)
    ensures Name(f) == Name(g) ==> f == g
  {
    var r := FieldNamed(Name(f));
    assert r == Some(f) by { match f { case _ => } }
  }

  lemma FieldsDistinct()
    ensures forall a, b :: 0 <= a < b < |Fields| ==> Fields[a] != Fields[b]
  {
  }

  lemma FieldsListsAll(f: Field)
    ensures f in Fields
  {
  }

  /** A field value as pydantic holds it. Assignment does not validate, so any field may hold any value. */
  datatype Value =
    | VStr(s: string)
    | VSecret(secret: string)  // SecretStr
    | VBool(b: bool)
    | VInt(i: int)
    | VList(items: seq<string>)
    | VDict(entries: seq<(string, Value)>)

  /** The declared type of a field. */
  datatype FieldType = StrType | SecretType | BoolType | IntType | ListType

  function TypeOf(f: Field): FieldType
  {
    match f
    case SecretKey | Salt => SecretType
    case Debug | EnableApiDocument => BoolType
    case ProcessLogDestroySeconds | ExtensionStoreVisibleItems => IntType
    case AllowedOrigins => ListType
    case _ => StrType
  }

  predicate HasType(v: Value, k: FieldType)
  {
    match k
    case StrType => v.VStr?
    case SecretType => v.VSecret?
    case BoolType => v.VBool?
    case IntType => v.VInt?
    case ListType => v.VList?
  }

  type AppConfig = map<Field, Value>

  /** Every field is present. */
  ghost predicate Complete(c: AppConfig)
  {
    forall f: Field :: f in c
  }

  /** Every field is present and holds a value of its declared type. */
  ghost predicate WellTyped(c: AppConfig)
  {
    forall f: Field :: f in c && HasType(c[f], TypeOf(f))
  }

  /** The declared default of each field. */
  function Default(f: Field): Value
  {
    match f
    case BaseDir => VStr("")
    case Host => VStr("localhost")
    case Port => VStr("12345")
    case Debug => VBool(false)
    case EnableApiDocument => VBool(false)
    case LogLevel => VStr("INFO")
    case SecretKey => VSecret("")
    case HashedToken => VStr("")
    case Salt => VSecret("")
    case AllowedOrigins => VList(["*"])
    case ProcessLogDestroySeconds => VInt(5 * 60)
    case ExtensionStoreVisibleItems => VInt(12)
  }

  /** `AppConfig()`: every field at its default. */
  const Defaults: AppConfig := map f: Field :: Default(f)

  lemma DefaultsWellTyped()
    ensures WellTyped(Defaults)
  {
    forall f: Field
      ensures f in Defaults && HasType(Defaults[f], TypeOf(f))
    {
      match f { case _ => }
    }
  }

  /** Python truthiness; an empty SecretStr is falsy as well. */
  predicate Truthy(v: Value)
  {
    match v
    case VStr(s) => s != ""
    case VSecret(s) => s != ""
    case VBool(b) => b
    case VInt(i) => i != 0
    case VList(l) => l != []
    case VDict(e) => e != []
  }

  /** `check_necessary_config`: base_dir, secret_key, hashed_token and salt are all set. */
  predicate CheckNecessary(c: AppConfig)
    requires Complete(c)
  {
    Truthy(c[BaseDir]) && Truthy(c[SecretKey]) && Truthy(c[HashedToken]) && Truthy(c[Salt])
  }

  /** For a well-typed config the check means: none of the four strings is empty. The defaults fail it. */
  lemma CheckNecessaryMeaning(c: AppConfig)
    requires WellTyped(c)
    ensures CheckNecessary(c) <==>
              && c[BaseDir] != VStr("") && c[SecretKey] != VSecret("")
              && c[HashedToken] != VStr("") && c[Salt] != VSecret("")
    ensures !CheckNecessary(Defaults)
  {
    assert HasType(c[BaseDir], TypeOf(BaseDir)) && HasType(c[SecretKey], TypeOf(SecretKey));
    assert HasType(c[HashedToken], TypeOf(HashedToken)) && HasType(c[Salt], TypeOf(Salt));
  }

  /** The text of a string-like value; "" for anything else. */
  function TextOf(v: Value): string
  {
    match v
    case VSecret(s) => s
    case VStr(s) => s
    case _ => ""
  }

  /**
   * The login check: the salt followed by the submitted token must verify
   * against the stored hash. verify is the salted-hash library's check.
   */
  function LoginAccepts(c: AppConfig, token: string, verify: (string, string) -> bool): (r: bool)
    requires Complete(c)
    ensures c[Salt].VSecret? && c[HashedToken].VStr? ==> (r <==> verify(c[Salt].secret + token, c[HashedToken].s))
  {
    verify(TextOf(c[Salt]) + token, TextOf(c[HashedToken]))
  }

  /** Assigning a field a value leaves every other field as it was. */
  function Assign(c: AppConfig, f: Field, v: Value): (r: AppConfig)
    requires Complete(c)
    ensures Complete(r) && r[f] == v
    ensures forall g :: g != f ==> r[g] == c[g]
    ensures WellTyped(c) && HasType(v, TypeOf(f)) ==> WellTyped(r)
  {
    c[f := v]
  }

  /**
   * `reset_token`: a fresh salt, and the hash of salt followed by token.
   * hash is the salted-hash library's hash function.
   */
  function ResetToken(c: AppConfig, token: string, newSalt: string, hash: string -> string): (r: AppConfig)
    requires Complete(c)
    ensures Complete(r) && (WellTyped(c) ==> WellTyped(r))
    ensures r[Salt] == VSecret(newSalt) && r[HashedToken] == VStr(hash(newSalt + token))
    ensures forall f :: f != Salt && f != HashedToken ==> r[f] == c[f]
  {
    Assign(Assign(c, Salt, VSecret(newSalt)), HashedToken, VStr(hash(newSalt + token)))
  }

  /** After a reset the new token logs in, because reset and login put salt and token in the same order. */
  lemma ResetThenLogin(c: AppConfig, token: string, newSalt: string, hash: string -> string,
                       verify: (string, string) -> bool)
    requires Complete(c)
    requires forall x :: verify(x, hash(x))
    ensures LoginAccepts(ResetToken(c, token, newSalt, hash), token, verify)
  {
  }

  /** JSON values, as `json.dumps` writes them and pydantic reads them. */
  datatype Json =
    | JStr(s: string)
    | JBool(b: bool)
    | JInt(i: int)
    | JArr(items: seq<Json>)
    | JObj(entries: seq<(string, Json)>)

  /** `SecretStrJSONEncoder`: a SecretStr is written as its plain value. */
  function Encode(v: Value): (j: Json)
    ensures v.VSecret? ==> j == JStr(v.secret)
    ensures v.VStr? ==> j == JStr(v.s)
    ensures v.VBool? ==> j == JBool(v.b)
    ensures v.VInt? ==> j == JInt(v.i)
    ensures v.VList? ==> j.JArr? && |j.items| == |v.items| && forall i :: 0 <= i < |v.items| ==> j.items[i] == JStr(v.items[i])
  {
    match v
    case VStr(s) => JStr(s)
    case VSecret(s) => JStr(s)
    case VBool(b) => JBool(b)
    case VInt(i) => JInt(i)
    case VList(l) => JArr(seq(|l|, i requires 0 <= i < |l| => JStr(l[i])))
    case VDict(e) => JObj(seq(|e|, i requires 0 <= i < |e| => (e[i].0, Encode(e[i].1))))
  }

  /** `to_json`: the fields in declaration order under their names. */
  function ToJson(c: AppConfig): (j: Json)
    requires Complete(c)
    ensures j.JObj? && |j.entries| == |Fields|
    ensures forall i :: 0 <= i < |Fields| ==> j.entries[i] == (Name(Fields[i]), Encode(c[Fields[i]]))
  {
    JObj(seq(|Fields|, i requires 0 <= i < |Fields| => (Name(Fields[i]), Encode(c[Fields[i]]))))
  }

  /** The value of the last entry named k, as a JSON object keeps it. */
  function Lookup(entries: seq<(string, Json)>, k: string): Option<Json>
    decreases |entries|
  {
    if |entries| == 0 then None
    else if entries[|entries| - 1].0 == k then Some(entries[|entries| - 1].1)
    else Lookup(entries[..|entries| - 1], k)
  }

  /** ASCII lower-casing. */
  function Lower(s: string): (r: string)
    ensures |r| == |s|
  {
    seq(|s|, i requires 0 <= i < |s| => if 'A' <= s[i] <= 'Z' then (s[i] - 'A' + 'a') as char else s[i])
  }

  /** pydantic's reading of a string as a bool: a fixed set of spellings, case-insensitively. */
  function BoolText(s: string): (r: Option<bool>)
    ensures r == Some(false) <==> Lower(s) in FalseWords
    ensures r == Some(true) <==> Lower(s) in TrueWords
  {
    var l := Lower(s);
    if l in FalseWords then Some(false)
    else if l in TrueWords then Some(true)
    else None
  }

  /** The spellings pydantic v1 reads as False and as True, in lower case. */
  const FalseWords: seq<string> := ["0", "off", "f", "false", "n", "no"]
  const TrueWords: seq<string> := ["1", "on", "t", "true", "y", "yes"]

  lemma LowerTwice(s: string)
    ensures Lower(Lower(s)) == Lower(s)
  {
    var l := Lower(s);
    forall i | 0 <= i < |l| ensures Lower(l)[i] == l[i] {
    }
  }

  /** The reading of a bool does not depend on letter case. */
  lemma BoolTextIgnoresCase(s: string)
    ensures BoolText(Lower(s)) == BoolText(s)
  {
    LowerTwice(s);
  }

  /**
   * How a field is read from the file: a missing field takes its default;
   * a value of the declared type is taken; a string is coerced to a bool
   * or an int as pydantic does; anything else is a validation error.
   */
  function DecodeField(f: Field, j: Option<Json>): (r: Option<Value>)
    ensures r.Some? ==> HasType(r.value, TypeOf(f)) || j.None?
  {
    match j
    case None => Some(Default(f))
    case Some(JStr(s)) =>
      (match TypeOf(f)
       case StrType => Some(VStr(s))
       case SecretType => Some(VSecret(s))
       case BoolType => (match BoolText(s) case Some(b) => Some(VBool(b)) case None => None)
       case IntType => (match ParseInt(s) case Some(n) => Some(VInt(n)) case None => None)
       case ListType => None)
    case Some(JBool(b)) => if TypeOf(f) == BoolType then Some(VBool(b)) else None
    case Some(JInt(i)) => if TypeOf(f) == IntType then Some(VInt(i)) else None
    case Some(JArr(xs)) =>
      if TypeOf(f) == ListType && forall i :: 0 <= i < |xs| ==> xs[i].JStr? then
        Some(VList(seq(|xs|, i requires 0 <= i < |xs| => xs[i].s)))
      else None
    case Some(JObj(_)) => None
  }

  /** `AppConfig.parse_file`: a JSON object whose fields all decode; unknown keys are ignored. */
  function ParseConfig(j: Json): (r: Result<AppConfig, string>)
    ensures r.Success? ==> WellTyped(r.value)
    ensures r.Success? <==> j.JObj? && forall f :: DecodeField(f, Lookup(j.entries, Name(f))).Some?
    ensures r.Success? ==> forall f :: r.value[f] == DecodeField(f, Lookup(j.entries, Name(f))).value
  {
    if !j.JObj? then Failure("not an object")
    else if exists f: Field :: DecodeField(f, Lookup(j.entries, Name(f))).None? then
      Failure("invalid field")
    else
      var c := map f: Field :: DecodeField(f, Lookup(j.entries, Name(f))).value;
      assert WellTyped(c) by {
        forall f: Field
          ensures HasType(c[f], TypeOf(f))
        {
          DefaultHasType(f);
        }
      }
      Success(c)
  }

  lemma DefaultHasType(f: Field)
    ensures HasType(Default(f), TypeOf(f))
  {
  }

  /** In entries named after distinct fields, each field's name finds its own entry. */
  lemma {:induction false} LookupNamed(es: seq<(string, Json)>, fs: seq<Field>, i: nat)
    requires |es| == |fs| && forall m :: 0 <= m < |fs| ==> es[m].0 == Name(fs[m])
    requires forall a, b :: 0 <= a < b < |fs| ==> fs[a] != fs[b]
    requires i < |fs|
    ensures Lookup(es, Name(fs[i])) == Some(es[i].1)
    decreases |fs|
  {
    var n := |fs| - 1;
    if i != n {
      NameInjective(fs[n], fs[i]);
      assert es[n].0 != Name(fs[i]);
      LookupNamed(es[..n], fs[..n], i);
    }
  }

  /** Decoding the value the encoder wrote for its own field gives the value back. */
  lemma DecodeEncoded(f: Field, v: Value)
    requires HasType(v, TypeOf(f))
    ensures DecodeField(f, Some(Encode(v))) == Some(v)
  {
    if v.VList? {
      var xs := Encode(v).items;
      assert seq(|xs|, i requires 0 <= i < |xs| => xs[i].s) == v.items;
    }
  }

  /** In the file `to_json` writes, each field's name finds that field's value. */
  lemma LookupToJson(c: AppConfig, f: Field)
    requires Complete(c)
    ensures Lookup(ToJson(c).entries, Name(f)) == Some(Encode(c[f]))
  {
    FieldsListsAll(f);
    var i :| 0 <= i < |Fields| && Fields[i] == f;
    FieldsDistinct();
    LookupNamed(ToJson(c).entries, Fields, i);
  }

  /** An object in which every field decodes to c's value reads as c. */
  lemma ParseDecoded(entries: seq<(string, Json)>, c: AppConfig)
    requires Complete(c)
    requires forall f :: DecodeField(f, Lookup(entries, Name(f))) == Some(c[f])
    ensures ParseConfig(JObj(entries)) == Success(c)
  {
    var r := ParseConfig(JObj(entries));
    assert r.Success?;
    assert forall f :: r.value[f] == c[f];
    assert r.value.Keys == c.Keys;
    assert r.value == c;
  }

  /** The file `to_json` writes reads back as the same configuration. */
  lemma JsonRoundTrip(c: AppConfig)
    requires WellTyped(c)
    ensures ParseConfig(ToJson(c)) == Success(c)
  {
    var es := ToJson(c).entries;
    forall f: Field
      ensures DecodeField(f, Lookup(es, Name(f))) == Some(c[f])
    {
      LookupToJson(c, f);
      DecodeEncoded(f, c[f]);
    }
    ParseDecoded(es, c);
  }

  /** A file holding an empty object reads as the defaults. */
  lemma EmptyFileGivesDefaults()
    ensures ParseConfig(JObj([])) == Success(Defaults)
  {
    var r := ParseConfig(JObj([]));
    assert r.Success?;
    assert r.value == Defaults;
  }

  /** The first input an input loop accepts, or None when it rejects every input given. */
  function FirstAccepted(inputs: seq<string>, ok: string -> bool): (r: Option<nat>)
    ensures r.Some? ==> r.value < |inputs| && ok(inputs[r.value])
    ensures r.Some? ==> forall i :: 0 <= i < r.value ==> !ok(inputs[i])
    ensures r.None? ==> forall i :: 0 <= i < |inputs| ==> !ok(inputs[i])
    decreases |inputs|
  {
    if |inputs| == 0 then None
    else if ok(inputs[0]) then Some(0)
    else
      match FirstAccepted(inputs[1..], ok)
      case None => None
      case Some(i) => Some(i + 1)
  }

  /** The input a prompt loop settles on. */
  function Accepted(inputs: seq<string>, ok: string -> bool): (r: Option<string>)
    ensures r.Some? ==> ok(r.value) && r.value in inputs
    ensures r.None? <==> forall i :: 0 <= i < |inputs| ==> !ok(inputs[i])
    ensures r.Some? ==> exists i :: && 0 <= i < |inputs| && r.value == inputs[i]
                                     && forall j :: 0 <= j < i ==> !ok(inputs[j])
  {
    match FirstAccepted(inputs, ok)
    case None => None
    case Some(i) => Some(inputs[i])
  }

  /** The answers to the token prompts: generate one, or enter one and re-enter it until it is accepted. */
  datatype TokenAnswers = TokenAnswers(generate: bool, generated: string, inputs: seq<string>)

  /** The token chosen at the token prompts. tokenOk is the token complexity check. */
  function ChooseToken(a: TokenAnswers, tokenOk: string -> bool): (r: Option<string>)
    ensures a.generate ==> r == Some(a.generated)
    ensures !a.generate && r.Some? ==> tokenOk(r.value) && r.value in a.inputs
    ensures !a.generate && r.Some? ==> exists i :: && 0 <= i < |a.inputs| && r.value == a.inputs[i]
                                                   && forall j :: 0 <= j < i ==> !tokenOk(a.inputs[j])
    ensures !a.generate ==> (r.None? <==> forall i :: 0 <= i < |a.inputs| ==> !tokenOk(a.inputs[i]))
  {
    if a.generate then Some(a.generated) else Accepted(a.inputs, tokenOk)
  }

  /** The answers given to the first-run prompts, in order. */
  datatype Answers = Answers(
    token: TokenAnswers,
    customServer: bool,
    hostInput: string,
    portInputs: seq<string>,   // the entered port, then each re-entry
    dirInputs: seq<string>,    // each base directory entered
    confirm: bool)

  /** Values produced by generators the model does not look inside. */
  datatype Fresh = Fresh(salt: string, secretKey: string)

  datatype SetupResult =
    | Written(config: AppConfig, token: string, file: Json)
    | Cancelled   // the final confirmation was declined: nothing is written
    | NeedsInput  // every answer given to some loop was rejected: it keeps prompting

  /** The fields the setup fills in; the others keep their defaults. */
  predicate SetBySetup(f: Field)
  {
    match f
    case BaseDir | Host | Port | SecretKey | Salt | HashedToken => true
    case _ => false
  }

  /** The configuration the setup writes. */
  function SetupConfig(dir: string, host: string, port: string, token: string, gen: Fresh, hash: string -> string)
    : (c: AppConfig)
    ensures WellTyped(c)
    ensures c[Salt] == VSecret(gen.salt) && c[HashedToken] == VStr(hash(gen.salt + token))
    ensures c[BaseDir] == VStr(dir) && c[Host] == VStr(host) && c[Port] == VStr(port)
    ensures c[SecretKey] == VSecret(gen.secretKey)
    ensures forall f :: !SetBySetup(f) ==> c[f] == Default(f)
  {
    map f: Field :: SetupValue(f, dir, host, port, token, gen, hash)
  }

  function SetupValue(f: Field, dir: string, host: string, port: string, token: string, gen: Fresh,
                      hash: string -> string): (v: Value)
    ensures HasType(v, TypeOf(f))
  {
    match f
    case BaseDir => VStr(dir)
    case Host => VStr(host)
    case Port => VStr(port)
    case SecretKey => VSecret(gen.secretKey)
    case Salt => VSecret(gen.salt)
    case HashedToken => VStr(hash(gen.salt + token))
    case _ => Default(f)
  }

  /** The base-directory loop's test; isAbsDir stands for `is_absolute() and is_dir()`. */
  function DirOk(isAbsDir: string -> bool): string -> bool
  {
    d => d != "" && isAbsDir(d)
  }

  /** `generate_config`. */
  function GenerateConfig(a: Answers, tokenOk: string -> bool, isAbsDir: string -> bool, gen: Fresh,
                          hash: string -> string): (r: SetupResult)
    ensures r.Written? <==>
              && ChooseToken(a.token, tokenOk).Some?
              && (a.customServer ==> Accepted(a.portInputs, PortAccepted).Some?)
              && Accepted(a.dirInputs, DirOk(isAbsDir)).Some?
              && a.confirm
    ensures r.Written? ==>
              r.config == SetupConfig(Accepted(a.dirInputs, DirOk(isAbsDir)).value,
                                      if a.customServer then a.hostInput else "localhost",
                                      if a.customServer then Accepted(a.portInputs, PortAccepted).value else "12345",
                                      r.token, gen, hash)
    ensures r.Written? ==> a.confirm && WellTyped(r.config) && r.file == ToJson(r.config)
    ensures r.Written? ==> r.config[Port].VStr? && PortAccepted(r.config[Port].s)
    ensures r.Written? ==> r.config[BaseDir].VStr? && r.config[BaseDir].s != "" && isAbsDir(r.config[BaseDir].s)
    ensures r.Written? ==> Some(r.token) == ChooseToken(a.token, tokenOk)
    ensures r.Written? ==> r.config[HashedToken] == VStr(hash(gen.salt + r.token)) && r.config[Salt] == VSecret(gen.salt)
    ensures r.Written? ==> r.config[SecretKey] == VSecret(gen.secretKey)
    ensures r.Written? && !a.customServer ==> r.config[Host] == VStr("localhost") && r.config[Port] == VStr("12345")
    ensures r.Written? && a.customServer ==> r.config[Host] == VStr(a.hostInput) && r.config[Port].s in a.portInputs
    ensures r.Cancelled? <==>
              && ChooseToken(a.token, tokenOk).Some?
              && (a.customServer ==> Accepted(a.portInputs, PortAccepted).Some?)
              && Accepted(a.dirInputs, DirOk(isAbsDir)).Some?
              && !a.confirm
  {
    var token := ChooseToken(a.token, tokenOk);
    var port := if a.customServer then Accepted(a.portInputs, PortAccepted) else Some("12345");
    var dir := Accepted(a.dirInputs, DirOk(isAbsDir));
    if token.None? || port.None? || dir.None? then NeedsInput
    else if !a.confirm then Cancelled
    else
      DefaultPortAccepted();
      var host := if a.customServer then a.hostInput else "localhost";
      var c := SetupConfig(dir.value, host, port.value, token.value, gen, hash);
      Written(c, token.value, ToJson(c))
  }

  /**
   * The token shown at setup logs in; the written file reads back as the
   * written config; and it passes the completeness check whenever the
   * generators produced non-empty values.
   */
  lemma SetupTokenLogsIn(a: Answers, tokenOk: string -> bool, isAbsDir: string -> bool, gen: Fresh,
                         hash: string -> string, verify: (string, string) -> bool, r: SetupResult)
    requires forall x :: verify(x, hash(x))
    requires r == GenerateConfig(a, tokenOk, isAbsDir, gen, hash) && r.Written?
    ensures LoginAccepts(r.config, r.token, verify) && ParseConfig(r.file) == Success(r.config)
    ensures gen.salt != "" && gen.secretKey != "" && hash(gen.salt + r.token) != "" ==> CheckNecessary(r.config)
  {
    FreshConfigLogsIn(r.config, r.token, gen, hash, verify);
  }

  /** A well-typed config holding the generated salt, key and token hash accepts the token and reads back. */
  lemma FreshConfigLogsIn(c: AppConfig, token: string, gen: Fresh, hash: string -> string,
                          verify: (string, string) -> bool)
    requires forall x :: verify(x, hash(x))
    requires WellTyped(c) && c[Salt] == VSecret(gen.salt) && c[SecretKey] == VSecret(gen.secretKey)
    requires c[HashedToken] == VStr(hash(gen.salt + token)) && c[BaseDir].VStr? && c[BaseDir].s != ""
    ensures LoginAccepts(c, token, verify) && ParseConfig(ToJson(c)) == Success(c)
    ensures gen.salt != "" && gen.secretKey != "" && hash(gen.salt + token) != "" ==> CheckNecessary(c)
  {
    assert TextOf(c[Salt]) + token == gen.salt + token;
    assert TextOf(c[HashedToken]) == hash(gen.salt + token);
    CheckNecessaryMeaning(c);
    JsonRoundTrip(c);
  }
}

=== FILE: create_task.dfy ===
/**
 * The project creation endpoint and its detached task: generate the
 * project files, create the virtual environment, pip-install nonebot2 with
 * the chosen drivers and adapters, record the project, write
 * ENVIRONMENT=prod to its .env, and log "✨ Done!".
 */
module CreateTask {
  import opened Base
  import opened Paths
  import opened Logs
  import opened Pipeline
  import opened Projects

  datatype CreateRequest = CreateRequest(
    projectName: string,
    projectDir: string,    // relative to the base directory
    drivers: seq<ModuleInfo>,
    adapters: seq<ModuleInfo>,
    isBootstrap: bool,
    useSrc: bool,
    mirrorUrl: string)

  /** The template context handed to the project generator. */
  datatype Context = Context(template: string, projectName: string, useSrc: Option<bool>, packages: seq<string>)

  /** `name.replace(" ", "-")`. */
  function Dashed(name: string): (r: string)
    ensures |r| == |name|
    ensures forall i :: 0 <= i < |name| ==> r[i] == (if name[i] == ' ' then '-' else name[i])
  {
    seq(|name|, i requires 0 <= i < |name| => if name[i] == ' ' then '-' else name[i])
  }

  /** The project name as used on disk contains no spaces, and replacing again changes nothing. */
  lemma DashedHasNoSpaces(name: string)
    ensures ' ' !in Dashed(name)
    ensures Dashed(Dashed(name)) == Dashed(name)
  {
  }

  function MakeContext(req: CreateRequest): (c: Context)
    ensures c.template == (if req.isBootstrap then "bootstrap" else "simple")
    ensures c.useSrc.Some? <==> !req.isBootstrap
    ensures c.useSrc.Some? ==> c.useSrc.value == req.useSrc
  {
    Context(
      if req.isBootstrap then "bootstrap" else "simple",
      Dashed(req.projectName),
      if req.isBootstrap then None else Some(req.useSrc),
      Links(req.drivers) + Links(req.adapters))
  }

  /** What pip is asked to install: nonebot2, then the drivers, then the adapters, in request order. */
  function Packages(req: CreateRequest): (ps: seq<string>)
    ensures |ps| == 1 + |req.drivers| + |req.adapters|
    ensures ps[0] == "nonebot2"
    ensures forall i :: 0 <= i < |req.drivers| ==> ps[1 + i] == req.drivers[i].projectLink
    ensures forall i :: 0 <= i < |req.adapters| ==> ps[1 + |req.drivers| + i] == req.adapters[i].projectLink
  {
    ["nonebot2"] + MakeContext(req).packages
  }

  /** `base / project_dir`, the directory the generator writes into. */
  function ParentDir(req: CreateRequest, base: Path, p: Platform): Path
  {
    Div(base, Parse(req.projectDir, p))
  }

  /** `base / project_dir / name`, with spaces in the name replaced by "-". */
  function ProjectDir(req: CreateRequest, base: Path, p: Platform): Path
  {
    Div(ParentDir(req, base, p), Parse(Dashed(req.projectName), p))
  }

  /** `project_dir.absolute()` as printed in the banner. */
  function DirText(req: CreateRequest, base: Path, cwd: Path, p: Platform): string
    requires cwd.absolute
  {
    Text(Absolute(ProjectDir(req, base, p), cwd), p)
  }

  /** With a well-formed base and working directory, the printed directory reads back as the absolute project directory. */
  lemma DirTextReadsBack(req: CreateRequest, base: Path, cwd: Path, p: Platform)
    requires cwd.absolute && WellFormed(cwd, p) && WellFormed(base, p)
    ensures Parse(DirText(req, base, cwd, p), p) == Absolute(ProjectDir(req, base, p), cwd)
    ensures Parse(DirText(req, base, cwd, p), p).parts
            == (if base.absolute || ProjectDir(req, base, p).absolute then [] else cwd.parts) + ProjectDir(req, base, p).parts
  {
    var parent := ParentDir(req, base, p);
    DivWellFormed(base, Parse(req.projectDir, p), p);
    DivWellFormed(parent, Parse(Dashed(req.projectName), p), p);
    var dir := ProjectDir(req, base, p);
    DivWellFormed(cwd, dir, p);
    ParseText(Absolute(dir, cwd), p);
  }

  /** For a plain name and a relative project_dir, the project lives at base, then project_dir's components, then the name. */
  lemma ProjectDirLayout(req: CreateRequest, base: Path, p: Platform)
    requires GoodPart(Dashed(req.projectName), p)
    requires |req.projectDir| == 0 || !IsSep(req.projectDir[0], p)
    ensures ProjectDir(req, base, p)
            == Path(base.absolute, base.parts + Components(req.projectDir, p) + [Dashed(req.projectName)])
  {
    var name := Dashed(req.projectName);
    ParseText(Path(false, [name]), p);
    assert Text(Path(false, [name]), p) == name;
  }

  /** The external operations of one creation task and how each ended. */
  datatype Effects = Effects(
    generate: Step,     // create_project
    venv: Step,         // create_virtualenv
    pip: Installer,
    removed: bool,      // whether shutil.rmtree of the project directory succeeded, on failure
    recordAdded: bool,  // the project manager's add() did not raise
    envWritten: bool)   // write_to_env(".env", "ENVIRONMENT", "prod") did not raise

  datatype CreateResult = CreateResult(
    log: seq<LogEntry>,
    pip: Option<PipCall>,
    record: Option<Project>,
    envWritten: bool,
    ending: Ending)

  function JoinComma(xs: seq<string>): string
  {
    if |xs| == 0 then "" else if |xs| == 1 then xs[0] else xs[0] + ", " + JoinComma(xs[1..])
  }

  /** The entries logged before the generator runs. */
  function Banner(req: CreateRequest, dirText: string): seq<LogEntry>
  {
    [ Note(ProcessingMsg),
      Note("Project name: " + req.projectName),
      Note("Project Dir: " + dirText),
      Note("Project Driver: " + JoinComma(Links(req.drivers))),
      Note("Project Adapter: " + JoinComma(Links(req.adapters))),
      Note(""),
      Note("Generate NoneBot project files...") ]
  }

  /** A caught failure logs the error; only if the directory could be removed do the two closing entries follow. */
  function FailureHandler(removed: bool): seq<LogEntry>
  {
    if removed then [Note(ClearedMsg), Note(FailedMsg)] else []
  }

  function CreateStages(req: CreateRequest, dirText: string, fx: Effects): seq<Stage>
  {
    [ Stage(Banner(req, dirText), Caught(fx.generate)),
      Stage([Note("Finished generate NoneBot project files"), Note("Initialization dependencies...")], Caught(fx.venv)),
      Stage([Note("Installing dependencies...")] + fx.pip.output, Caught(fx.pip.result)),
      Stage([], Uncaught(fx.recordAdded)),
      Stage([], Uncaught(fx.envWritten)),
      Stage([Note(DoneMsg)], Ok) ]
  }

  /** Whatever the effects, the task's log opens with the first three banner entries. */
  lemma BannerLeads(req: CreateRequest, dirText: string, fx: Effects)
    ensures var log := Execute(CreateStages(req, dirText, fx), FailureHandler(fx.removed)).log;
            |log| >= 3 && log[..3] == [Note(ProcessingMsg), Note("Project name: " + req.projectName),
                                       Note("Project Dir: " + dirText)]
  {
    var stages := CreateStages(req, dirText, fx);
    var log := Execute(stages, FailureHandler(fx.removed)).log;
    FirstProgressLeads(stages, FailureHandler(fx.removed));
    var b := Banner(req, dirText);
    assert log[..3] == log[..7][..3] == b[..3];
  }

  /** How far the six stages got, in terms of the effects. */
  lemma RunFacts(req: CreateRequest, dirText: string, fx: Effects)
    ensures var run := Execute(CreateStages(req, dirText, fx), FailureHandler(fx.removed));
            && (run.passed >= 2 <==> fx.generate.Pass? && fx.venv.Pass?)
            && (run.passed >= 4 ==> fx.pip.result.Pass? && fx.recordAdded)
            && (run.passed >= 5 ==> fx.envWritten)
            && run.passed != 5
            && (run.ending.Completed? <==> run.passed >= 5)
  {
    var stages := CreateStages(req, dirText, fx);
    assert stages[0].outcome.Ok? <==> fx.generate.Pass?;
    assert stages[1].outcome.Ok? <==> fx.venv.Pass?;
    assert stages[2].outcome.Ok? <==> fx.pip.result.Pass?;
    assert stages[3].outcome.Ok? <==> fx.recordAdded;
    assert stages[4].outcome.Ok? <==> fx.envWritten;
    assert stages[5].outcome.Ok?;
  }

  /**
   * The detached task, run in the working directory cwd with the WebUI's
   * base directory base; newId is the fresh six-character project id.
   */
  function Create(req: CreateRequest, base: Path, cwd: Path, p: Platform, newId: string, fx: Effects): (r: CreateResult)
    requires cwd.absolute
    ensures |r.log| >= 3 && r.log[..3] == [Note(ProcessingMsg), Note("Project name: " + req.projectName),
                                           Note("Project Dir: " + DirText(req, base, cwd, p))]
    ensures r.pip.Some? ==> r.pip.value == PipCall(PipInstall, Packages(req), ["-i", req.mirrorUrl])
    ensures r.pip.Some? <==> fx.generate.Pass? && fx.venv.Pass?
    ensures r.record.Some? ==> fx.generate.Pass? && fx.venv.Pass? && fx.pip.result.Pass? && fx.recordAdded
    ensures r.record.Some? ==> r.record.value.projectId == newId && r.record.value.projectDir == ProjectDir(req, base, p)
    ensures r.record.Some? ==> r.record.value.projectName == Dashed(req.projectName)
    ensures r.envWritten ==> r.record.Some? && fx.envWritten
    ensures r.ending.Completed? <==> r.envWritten
  {
    var dir := ProjectDir(req, base, p);
    var dirText := DirText(req, base, cwd, p);
    var run := Execute(CreateStages(req, dirText, fx), FailureHandler(fx.removed));
    BannerLeads(req, dirText, fx);
    RunFacts(req, dirText, fx);
    CreateResult(
      run.log,
      if run.passed >= 2 then Some(PipCall(PipInstall, Packages(req), ["-i", req.mirrorUrl])) else None,
      if run.passed >= 4 then
        Some(Project(newId, Dashed(req.projectName), dir, req.mirrorUrl, req.adapters, req.drivers, None, false))
      else None,
      run.passed >= 5,
      run.ending)
  }

  /** Every stage succeeds: the log closes with "✨ Done!" right after the installer's output. */
  lemma CreateSucceeds(req: CreateRequest, base: Path, cwd: Path, p: Platform, newId: string, fx: Effects)
    requires cwd.absolute
    requires fx.generate.Pass? && fx.venv.Pass? && fx.pip.result.Pass? && fx.recordAdded && fx.envWritten
    ensures var r := Create(req, base, cwd, p, newId, fx);
            && r.log == Banner(req, DirText(req, base, cwd, p))
                        + [Note("Finished generate NoneBot project files"), Note("Initialization dependencies...")]
                        + [Note("Installing dependencies...")] + fx.pip.output
                        + [Note(DoneMsg)]
            && r.record.Some? && r.envWritten && r.ending == Completed
  {
    var dirText := DirText(req, base, cwd, p);
    var stages := CreateStages(req, dirText, fx);
    AllPass(stages, FailureHandler(fx.removed));
    StagesLog(req, dirText, fx);
    assert Create(req, base, cwd, p, newId, fx).log == Execute(stages, FailureHandler(fx.removed)).log;
  }

  /** The progress of all six stages, in order. */
  lemma StagesLog(req: CreateRequest, dirText: string, fx: Effects)
    ensures Flatten(CreateStages(req, dirText, fx))
            == Banner(req, dirText)
               + [Note("Finished generate NoneBot project files"), Note("Initialization dependencies...")]
               + [Note("Installing dependencies...")] + fx.pip.output
               + [Note(DoneMsg)]
  {
    var stages := CreateStages(req, dirText, fx);
    StagesLogTail(req, dirText, fx);
    FlattenFrom(stages, 1);
    FlattenFrom(stages, 0);
  }

  /** The progress of the stages from pip on. */
  lemma StagesLogTail(req: CreateRequest, dirText: string, fx: Effects)
    ensures Flatten(CreateStages(req, dirText, fx)[2..]) == [Note("Installing dependencies...")] + fx.pip.output + [Note(DoneMsg)]
  {
    var stages := CreateStages(req, dirText, fx);
    FlattenFrom(stages, 5);
    assert stages[6..] == [];
    FlattenFrom(stages, 4);
    FlattenFrom(stages, 3);
    FlattenFrom(stages, 2);
  }

  /** The first failing stage among generate, venv and pip, with its error text. */
  function FirstFailure(fx: Effects): Option<(nat, string)>
  {
    if fx.generate.Throw? then Some((0, fx.generate.msg))
    else if fx.venv.Throw? then Some((1, fx.venv.msg))
    else if fx.pip.result.Throw? then Some((2, fx.pip.result.msg))
    else None
  }

  /**
   * A failure in generation, venv creation or pip: one ERROR entry with the
   * error text closes the log, followed by the two cleanup entries only if
   * the directory was removed; no later stage runs, so no project is
   * recorded, nothing is written to .env, and there is no "✨ Done!".
   */
  lemma CreateFails(req: CreateRequest, base: Path, cwd: Path, p: Platform, newId: string, fx: Effects, k: nat,
                    msg: string)
    requires cwd.absolute
    requires FirstFailure(fx) == Some((k, msg))
    ensures var r := Create(req, base, cwd, p, newId, fx);
            && r.log == Flatten(CreateStages(req, DirText(req, base, cwd, p), fx)[..k + 1]) + [LogEntry(Error, msg)]
                        + FailureHandler(fx.removed)
            && r.record.None? && !r.envWritten && r.ending == Failed(msg)
            && (k < 2 ==> r.pip.None?)
  {
    var dirText := DirText(req, base, cwd, p);
    var stages := CreateStages(req, dirText, fx);
    var h := FailureHandler(fx.removed);
    FirstFailureStage(req, dirText, fx, k, msg);
    FailsAt(stages, h, k, msg);
    assert Create(req, base, cwd, p, newId, fx).log == Execute(stages, h).log;
  }

  /** The first failing effect is the stage where the run stops, every earlier stage having passed. */
  lemma FirstFailureStage(req: CreateRequest, dirText: string, fx: Effects, k: nat, msg: string)
    requires FirstFailure(fx) == Some((k, msg))
    ensures var stages := CreateStages(req, dirText, fx);
            && k < 3 && stages[k].outcome == Err(msg)
            && forall i :: 0 <= i < k ==> stages[i].outcome.Ok?
  {
  }

  /** The HTTP reply: the key of the task's log. */
  datatype Submission = Submission(registry: Registry, context: Context, dir: Path, key: string)

  /**
   * The synchronous part of the endpoint: compute the name, directory and
   * template context, register the log key and schedule its removal, and
   * return the key.
   */
  function SubmitCreate(r: Registry, req: CreateRequest, base: Path, p: Platform, key: string): (s: Submission)
    ensures s.key == key
    ensures s.registry == OpenTaskLog(r, key)
    ensures s.context.projectName == Dashed(req.projectName)
    ensures s.dir == ProjectDir(req, base, p)
  {
    Submission(OpenTaskLog(r, key), MakeContext(req), ProjectDir(req, base, p), key)
  }

  /** The task started for a submission records the directory the submission computed, and prints it absolute. */
  lemma SubmittedTaskRecordsDir(reg: Registry, req: CreateRequest, base: Path, cwd: Path, p: Platform, key: string,
                                newId: string, fx: Effects)
    requires cwd.absolute
    ensures var s := SubmitCreate(reg, req, base, p, key);
            var r := Create(req, base, cwd, p, newId, fx);
            && (r.record.Some? ==> r.record.value.projectDir == s.dir)
            && r.log[2] == Note("Project Dir: " + Text(Absolute(s.dir, cwd), p))
  {
    var r := Create(req, base, cwd, p, newId, fx);
    assert r.log[2] == r.log[..3][2];
  }
}

=== FILE: extension_store.dfy ===
/**
 * The extension-store page state of the frontend (a pinia store): page
 * turning, the category and nav setters, and the `requesting` flag and data
 * around each request to the backend.
 */
module ExtensionStore {
  import opened Base

  /** A plugin, adapter or driver record as the store lists it. */
  datatype Extension = Extension(moduleName: string, projectLink: string)

  datatype Store = Store(
    searchInput: string,
    requesting: bool,
    storeData: seq<Extension>,
    nowPage: int,
    totalPage: int,
    totalItem: int,
    choiceClass: string,
    choiceItem: Option<Extension>,
    sideNavShow: bool)

  /** The store's initial state. */
  const Initial := Store("", false, [], 0, 0, 0, "plugin", None, true)

  /** `assignClass`. */
  function AssignClass(s: Store, cls: string): (r: Store)
    ensures r.choiceClass == cls
    ensures r.(choiceClass := s.choiceClass) == s
  {
    s.(choiceClass := cls)
  }

  /** `switchNavVisible`. */
  function SwitchNavVisible(s: Store): (r: Store)
    ensures r.sideNavShow == !s.sideNavShow
    ensures r.(sideNavShow := s.sideNavShow) == s
  {
    s.(sideNavShow := !s.sideNavShow)
  }

  /** Two toggles restore the nav state. */
  lemma SwitchTwice(s: Store)
    ensures SwitchNavVisible(SwitchNavVisible(s)) == s
  {
  }

  /** The page `turnPage` settles on: negative pages become 0, then anything at or past totalPage becomes totalPage. */
  function ClampPage(page: int, totalPage: int): int
  {
    var p := if page >= 0 then page else 0;
    if page >= totalPage then totalPage else p
  }

  /** `turnPage`. */
  function TurnPage(s: Store, page: int): (r: Store)
    ensures r.(nowPage := s.nowPage) == s
  {
    s.(nowPage := ClampPage(page, s.totalPage))
  }

  /** A page inside the range is taken as given. */
  lemma TurnPageInRange(s: Store, page: int)
    requires 0 <= page < s.totalPage
    ensures TurnPage(s, page).nowPage == page
  {
  }

  /**
   * With a non-negative page count, a negative page gives 0 and a page at or
   * past the count gives the count itself (not the count minus one).
   */
  lemma TurnPageClamps(s: Store, page: int)
    requires s.totalPage >= 0
    ensures page < 0 ==> TurnPage(s, page).nowPage == 0
    ensures page >= s.totalPage ==> TurnPage(s, page).nowPage == s.totalPage
  {
  }

  /** With a non-negative page count the page lands in [0, totalPage], and turning to it again changes nothing. */
  lemma TurnPageSettles(s: Store, page: int)
    requires s.totalPage >= 0
    ensures var r := TurnPage(s, page);
            0 <= r.nowPage <= s.totalPage && TurnPage(r, r.nowPage) == r
  {
  }

  /** With a negative page count (not guarded against), a negative page can land below 0. */
  lemma NegativeTotalEscapes()
    ensures TurnPage(Initial.(totalPage := -2), -1).nowPage == -2
  {
  }

  /** The backend calls the store makes. */
  datatype Request =
    | GetPlugins(page: int, isSearch: bool, projectId: string)
    | GetAdapters(page: int, isSearch: bool, projectId: string)
    | GetDrivers(page: int, isSearch: bool, projectId: string)
    | SearchStore(projectId: string, cls: string, input: string)
    | RefreshStore

  /** An axios failure: the response's `detail`, when a response came back, and the error message. */
  datatype ApiError = ApiError(responseDetail: Option<string>, message: string)

  /** A reply: a page of records, or a failure. */
  datatype Reply =
    | Page(data: seq<Extension>, totalPage: int, totalItem: int)
    | Refused(error: ApiError)

  /** The reason a toast shows: the response's detail if there was a response, else the message. */
  function Reason(e: ApiError): string
  {
    match e.responseDetail
    case Some(d) => d
    case None => e.message
  }

  /** The state after an action, with the requests it issued and the error toasts it showed. */
  datatype Effect = Effect(store: Store, requests: seq<Request>, toasts: seq<string>)

  /** The shared `.then`/`.catch` of a listing request: clear the flag, then copy the page or show a toast. */
  function Settle(s: Store, reply: Reply, prefix: string): (r: (Store, seq<string>))
    ensures !r.0.requesting
    ensures reply.Page? ==>
              r.0 == s.(requesting := false, storeData := reply.data, totalPage := reply.totalPage,
                        totalItem := reply.totalItem) && r.1 == []
    ensures reply.Refused? ==> r.0 == s.(requesting := false) && r.1 == [prefix + Reason(reply.error)]
  {
    match reply
    case Page(data, tp, ti) => (s.(requesting := false, storeData := data, totalPage := tp, totalItem := ti), [])
    case Refused(e) => (s.(requesting := false), [prefix + Reason(e)])
  }

  const PluginFailure := "获取插件列表失败："
  const AdapterFailure := "获取适配器列表失败："
  const DriverFailure := "获取驱动器列表失败："
  const SearchFailure := "搜索 NoneBot 拓展商店失败："
  const RefreshFailure := "NoneBot 拓展商店刷新失败："

  /** One listing request and its settling. */
  function Fetch(s: Store, req: Request, api: Request -> Reply, prefix: string): (r: Effect)
    ensures r.requests == [req]
    ensures (r.store, r.toasts) == Settle(s, api(req), prefix)
  {
    var (t, toasts) := Settle(s, api(req), prefix);
    Effect(t, [req], toasts)
  }

  /**
   * `updateData`: three independent tests of choiceClass, so at most one
   * request. api stands for the backend; its reply settles the request.
   */
  function UpdateData(s: Store, projectId: string, api: Request -> Reply): (r: Effect)
    ensures |r.requests| <= 1
    ensures r.requests == [] <==> s.choiceClass !in ["plugin", "adapter", "driver"]
    ensures r.requests == [] ==> r.store == s.(requesting := true) && r.toasts == []
    ensures s.choiceClass == "plugin" ==> r.requests == [GetPlugins(s.nowPage, s.searchInput != "", projectId)]
    ensures s.choiceClass == "adapter" ==> r.requests == [GetAdapters(s.nowPage, s.searchInput != "", projectId)]
    ensures s.choiceClass == "driver" ==> r.requests == [GetDrivers(s.nowPage, s.searchInput != "", projectId)]
    ensures r.requests != [] ==> !r.store.requesting
  {
    var isSearch := s.searchInput != "";
    var s1 := s.(requesting := true);
    if s.choiceClass == "plugin" then Fetch(s1, GetPlugins(s.nowPage, isSearch, projectId), api, PluginFailure)
    else if s.choiceClass == "adapter" then Fetch(s1, GetAdapters(s.nowPage, isSearch, projectId), api, AdapterFailure)
    else if s.choiceClass == "driver" then Fetch(s1, GetDrivers(s.nowPage, isSearch, projectId), api, DriverFailure)
    else Effect(s1, [], [])
  }

  /** `updateDataBySearch`. */
  function UpdateDataBySearch(s: Store, projectId: string, api: Request -> Reply): (r: Effect)
    ensures r.requests == [SearchStore(projectId, s.choiceClass, s.searchInput)]
    ensures (r.store, r.toasts) == Settle(s.(requesting := true), api(r.requests[0]), SearchFailure)
  {
    Fetch(s.(requesting := true), SearchStore(projectId, s.choiceClass, s.searchInput), api, SearchFailure)
  }

  /** `refresh`: the reply's content is not used; only the flag and a failure toast change. */
  function Refresh(s: Store, api: Request -> Reply): (r: Effect)
    ensures r.requests == [RefreshStore] && r.store == s.(requesting := false)
    ensures api(RefreshStore).Page? ==> r.toasts == []
    ensures api(RefreshStore).Refused? ==> r.toasts == [RefreshFailure + Reason(api(RefreshStore).error)]
  {
    var s1 := s.(requesting := true);
    match api(RefreshStore)
    case Page(_, _, _) => Effect(s1.(requesting := false), [RefreshStore], [])
    case Refused(e) => Effect(s1.(requesting := false), [RefreshStore], [RefreshFailure + Reason(e)])
  }

  /**
   * Around every listing or search request: the flag ends cleared; a page
   * replaces the data and both totals; a failure leaves them as they were;
   * nothing else in the store changes.
   */
  lemma FetchFlags(s: Store, projectId: string, api: Request -> Reply, search: bool)
    requires search || s.choiceClass in ["plugin", "adapter", "driver"]
    ensures var r := if search then UpdateDataBySearch(s, projectId, api) else UpdateData(s, projectId, api);
            var reply := api(r.requests[0]);
            && !r.store.requesting
            && (reply.Page? ==> r.store.storeData == reply.data && r.store.totalPage == reply.totalPage
                                && r.store.totalItem == reply.totalItem && r.toasts == [])
            && (reply.Refused? ==> r.store == s.(requesting := false) && |r.toasts| == 1)
            && r.store.(requesting := s.requesting, storeData := s.storeData, totalPage := s.totalPage,
                        totalItem := s.totalItem) == s
  {
  }
}

=== FILE: instances.dfy ===
/**
 * Instance control over the process registry: the run, stop and write
 * endpoints, the environment a bot process is started with, and the list
 * endpoint's join of project records against registered processes.
 */
module Instances {
  import opened Base
  import opened Paths
  import opened Logs
  import opened Projects

  /**
   * A managed process, reduced to what the handlers observe and set:
   * its command line, directory and environment, the log rotation time,
   * whether it runs, what was written to its stdin, and how often it was started.
   */
  datatype Proc = Proc(
    python: string,
    args: seq<string>,
    cwd: Path,
    env: map<string, string>,
    logRotation: nat,
    running: bool,
    stdin: seq<string>,
    starts: nat)

  /** Seconds a running instance keeps each log entry. */
  const LogRotationSeconds: nat := 5 * 60

  const TermValue: string := "xterm-color"

  /** The process registry together with the log registry processes are wired into. */
  datatype State = State(procs: map<string, Proc>, logs: Registry)

  datatype Failure =
    | ProjectMissing(projectId: string)  // 400: no such project record
    | AlreadyRunning(projectId: string)  // 400
    | NoProcess                          // 400: nothing registered under the id
    | WriteFailed(reason: string)        // 400: writing to stdin raised
    | PathUnset                          // the environment has no PATH: a KeyError, answered with 500

  function Start(p: Proc): Proc
  {
    p.(running := true, starts := p.starts + 1)
  }

  function Halt(p: Proc): Proc
  {
    p.(running := false)
  }

  function BinDir(p: Platform): string
  {
    if p == Win32 then "Scripts" else "bin"
  }

  /**
   * The directory the run handler puts in front of PATH, as written:
   * `project_dir / Path(".venv\\Scripts")` on Windows and
   * `project_dir / Path(".venv\\bin")` elsewhere.
   */
  function VenvDirAsWritten(dir: Path, p: Platform): Path
  {
    Div(dir, Parse(if p == Win32 then ".venv\\Scripts" else ".venv\\bin", p))
  }

  /** The virtual environment's script directory: `.venv/Scripts` on Windows, `.venv/bin` elsewhere. */
  function VenvDir(dir: Path, p: Platform): Path
  {
    Div(dir, Path(false, [".venv", BinDir(p)]))
  }

  /** On Windows the backslash separates, so the path as written is the intended one. */
  lemma VenvDirOnWindows(dir: Path)
    ensures VenvDirAsWritten(dir, Win32) == VenvDir(dir, Win32)
  {
    var q := Path(false, [".venv", "Scripts"]);
    assert GoodPart(".venv", Win32);
    assert GoodPart("Scripts", Win32);
    ParseText(q, Win32);
    assert Text(q, Win32) == ".venv\\Scripts";
  }

  /**
   * Elsewhere the backslash is an ordinary character: the path as written
   * ends in the single component ".venv\\bin", not in ".venv" then "bin".
   */
  lemma VenvDirAsWrittenOnPosix(dir: Path)
    ensures VenvDirAsWritten(dir, Posix) == Path(dir.absolute, dir.parts + [".venv\\bin"])
    ensures VenvDirAsWritten(dir, Posix) != VenvDir(dir, Posix)
  {
    var q := Path(false, [".venv\\bin"]);
    assert GoodPart(".venv\\bin", Posix);
    ParseText(q, Posix);
    assert Text(q, Posix) == ".venv\\bin";
    assert |VenvDirAsWritten(dir, Posix).parts| != |VenvDir(dir, Posix).parts|;
  }

  /** The separator between PATH entries. */
  function PathListSep(p: Platform): char
  {
    if p == Win32 then ';' else ':'
  }

  /** `os.linesep`: the line terminator appended to what is written to stdin. */
  function LineSep(p: Platform): string
  {
    if p == Win32 then "\r\n" else "\n"
  }

  /**
   * The text the run handler prepends to PATH, as written: the absolute
   * form of `project_dir / Path(".venv\\Scripts")` or `Path(".venv\\bin")`.
   */
  function VenvText(dir: Path, p: Platform, cwd: Path): string
    requires cwd.absolute
  {
    Text(Absolute(VenvDirAsWritten(dir, p), cwd), p)
  }

  /** The text the handler evidently means to prepend: the absolute venv script directory. */
  function VenvTextIntended(dir: Path, p: Platform, cwd: Path): string
    requires cwd.absolute
  {
    Text(Absolute(VenvDir(dir, p), cwd), p)
  }

  /**
   * A copy of the server's environment with TERM set and entry put in
   * front of PATH; None when PATH is not set, which raises in the handler.
   */
  function EnvWith(osEnv: map<string, string>, entry: string, p: Platform): (r: Option<map<string, string>>)
    ensures r.Some? <==> "PATH" in osEnv
    ensures r.Some? ==> r.value.Keys == osEnv.Keys + {"TERM"}
    ensures r.Some? ==> r.value["TERM"] == TermValue
    ensures r.Some? ==> r.value["PATH"] == entry + [PathListSep(p)] + osEnv["PATH"]
    ensures r.Some? ==> forall k :: k in osEnv && k != "TERM" && k != "PATH" ==> r.value[k] == osEnv[k]
  {
    if "PATH" !in osEnv then None
    else Some(osEnv["TERM" := TermValue]["PATH" := entry + [PathListSep(p)] + osEnv["PATH"]])
  }

  /** The environment of a new bot process, as the run handler builds it. */
  function RunEnv(osEnv: map<string, string>, dir: Path, p: Platform, cwd: Path): (r: Option<map<string, string>>)
    requires cwd.absolute
    ensures r.Some? <==> "PATH" in osEnv
    ensures r.Some? ==> r.value.Keys == osEnv.Keys + {"TERM"}
    ensures r.Some? ==> r.value["TERM"] == TermValue
    ensures r.Some? ==> r.value["PATH"] == VenvText(dir, p, cwd) + [PathListSep(p)] + osEnv["PATH"]
    ensures r.Some? ==> forall k :: k in osEnv && k != "TERM" && k != "PATH" ==> r.value[k] == osEnv[k]
  {
    EnvWith(osEnv, VenvText(dir, p, cwd), p)
  }

  /** The environment with the venv script directory the handler evidently intends in front of PATH. */
  function RunEnvIntended(osEnv: map<string, string>, dir: Path, p: Platform, cwd: Path): (r: Option<map<string, string>>)
    requires cwd.absolute
    ensures r.Some? <==> "PATH" in osEnv
    ensures r.Some? ==> r.value.Keys == osEnv.Keys + {"TERM"}
    ensures r.Some? ==> r.value["TERM"] == TermValue
    ensures r.Some? ==> r.value["PATH"] == VenvTextIntended(dir, p, cwd) + [PathListSep(p)] + osEnv["PATH"]
    ensures r.Some? ==> forall k :: k in osEnv && k != "TERM" && k != "PATH" ==> r.value[k] == osEnv[k]
  {
    EnvWith(osEnv, VenvTextIntended(dir, p, cwd), p)
  }

  /**
   * The first PATH entry of an environment built around the text of a
   * well-formed rooted path reads back as that path, and the old PATH
   * follows the separator.
   */
  lemma EntryReadsBack(osEnv: map<string, string>, v: Path, p: Platform)
    requires v.absolute && WellFormed(v, p) && "PATH" in osEnv
    ensures var path := EnvWith(osEnv, Text(v, p), p).value["PATH"];
            var n := |Text(v, p)|;
            && n < |path| && path[n] == PathListSep(p) && path[n + 1..] == osEnv["PATH"]
            && Parse(path[..n], p) == v
  {
    ParseText(v, p);
    var t := Text(v, p);
    var path := t + [PathListSep(p)] + osEnv["PATH"];
    assert path[..|t|] == t;
    assert path[|t| + 1..] == osEnv["PATH"];
  }

  /**
   * As written, on POSIX the first PATH entry reads back as the project
   * directory followed by the single component ".venv\\bin", which is not
   * the venv's bin directory.
   */
  lemma RunEnvAsWrittenOnPosix(osEnv: map<string, string>, dir: Path, cwd: Path)
    requires cwd.absolute && WellFormed(cwd, Posix) && WellFormed(dir, Posix)
    requires "PATH" in osEnv
    ensures var path := RunEnv(osEnv, dir, Posix, cwd).value["PATH"];
            var n := |VenvText(dir, Posix, cwd)|;
            && n < |path| && path[n] == ':' && path[n + 1..] == osEnv["PATH"]
            && Parse(path[..n], Posix).parts == (if dir.absolute then [] else cwd.parts) + dir.parts + [".venv\\bin"]
            && Parse(path[..n], Posix) != Absolute(VenvDir(dir, Posix), cwd)
  {
    var v := Absolute(VenvDirAsWritten(dir, Posix), cwd);
    AsWrittenEntryOnPosix(dir, cwd);
    assert RunEnv(osEnv, dir, Posix, cwd) == EnvWith(osEnv, Text(v, Posix), Posix);
    EntryReadsBack(osEnv, v, Posix);
  }

  /** The as-written venv directory made absolute on POSIX: well formed, ending in the one part ".venv\bin". */
  lemma AsWrittenEntryOnPosix(dir: Path, cwd: Path)
    requires cwd.absolute && WellFormed(cwd, Posix) && WellFormed(dir, Posix)
    ensures var v := Absolute(VenvDirAsWritten(dir, Posix), cwd);
            && v.absolute && WellFormed(v, Posix)
            && v.parts == (if dir.absolute then [] else cwd.parts) + dir.parts + [".venv\\bin"]
            && v != Absolute(VenvDir(dir, Posix), cwd)
  {
    VenvDirAsWrittenOnPosix(dir);
    var w := VenvDirAsWritten(dir, Posix);
    var v := Absolute(w, cwd);
    var pre := if dir.absolute then [] else cwd.parts;
    assert v.parts == pre + dir.parts + [".venv\\bin"] by {
      if !dir.absolute {
        assert v.parts == cwd.parts + (dir.parts + [".venv\\bin"]);
      }
    }
    DivWellFormed(dir, Parse(".venv\\bin", Posix), Posix);
    DivWellFormed(cwd, w, Posix);
    assert |v.parts| != |Absolute(VenvDir(dir, Posix), cwd).parts|;
  }

  /** On Windows the environment as written is the intended one. */
  lemma RunEnvOnWindows(osEnv: map<string, string>, dir: Path, cwd: Path)
    requires cwd.absolute
    ensures RunEnv(osEnv, dir, Win32, cwd) == RunEnvIntended(osEnv, dir, Win32, cwd)
  {
    VenvDirOnWindows(dir);
  }

  /**
   * Corrected: the first PATH entry names the venv script directory inside
   * the project. Reading it back as a path gives the project directory's
   * components followed by ".venv" and "bin" (or "Scripts").
   */
  lemma RunEnvPathNamesVenv(osEnv: map<string, string>, dir: Path, p: Platform, cwd: Path)
    requires cwd.absolute && WellFormed(cwd, p) && WellFormed(dir, p)
    requires "PATH" in osEnv
    ensures var path := RunEnvIntended(osEnv, dir, p, cwd).value["PATH"];
            var n := |VenvTextIntended(dir, p, cwd)|;
            && n < |path| && path[n] == PathListSep(p) && path[n + 1..] == osEnv["PATH"]
            && Parse(path[..n], p) == Absolute(VenvDir(dir, p), cwd)
            && Parse(path[..n], p).parts == (if dir.absolute then [] else cwd.parts) + dir.parts + [".venv", BinDir(p)]
  {
    var v := Absolute(VenvDir(dir, p), cwd);
    assert GoodPart(".venv", p);
    assert GoodPart(BinDir(p), p);
    assert WellFormed(v, p);
    EntryReadsBack(osEnv, v, p);
  }

  /** External facts the run handler consults when it creates a process. */
  datatype Launch = Launch(
    defaultPython: string,  // get_default_python(), used when the project has no venv python
    botPyExists: bool,      // (project_dir / "bot.py").is_file()
    runScript: string)      // generate_run_script(...) for projects without bot.py

  /** A fresh, not yet started process for the project. */
  function NewProc(proj: Project, env: map<string, string>, launch: Launch, p: Platform): (r: Proc)
    ensures proj.pythonPath.Some? ==> r.python == proj.pythonPath.value
    ensures proj.pythonPath.None? ==> r.python == launch.defaultPython
    ensures launch.botPyExists ==> r.args == [Text(Div(proj.projectDir, Path(false, ["bot.py"])), p)]
    ensures !launch.botPyExists ==> r.args == ["-c", launch.runScript]
    ensures r.cwd == proj.projectDir && r.env == env
    ensures r.logRotation == LogRotationSeconds == 300
    ensures !r.running && r.stdin == [] && r.starts == 0
  {
    Proc(
      proj.pythonPath.GetOr(launch.defaultPython),
      if launch.botPyExists then [Text(Div(proj.projectDir, Path(false, ["bot.py"])), p)] else ["-c", launch.runScript],
      proj.projectDir,
      env,
      LogRotationSeconds,
      false,
      [],
      0)
  }

  /**
   * The run endpoint. A registered process is restarted in place unless it
   * runs; otherwise a new process is created, its log registered under the
   * project id, the process registered under the same id, and started.
   */
  function RunProject(st: State, projects: map<string, Project>, id: string, osEnv: map<string, string>,
                      p: Platform, cwd: Path, launch: Launch): (r: Result<State, Failure>)
    requires cwd.absolute
    ensures r == Failure(ProjectMissing(id)) <==> id !in projects
    ensures id in projects && "PATH" !in osEnv ==> r == Failure(PathUnset)
    ensures r.Success? <==> id in projects && "PATH" in osEnv && !(id in st.procs && st.procs[id].running)
    ensures id in projects && "PATH" in osEnv && id in st.procs && st.procs[id].running ==> r == Failure(AlreadyRunning(id))
    ensures r.Success? ==> id in r.value.procs && r.value.procs[id].running
    ensures r.Success? ==> r.value.procs.Keys == st.procs.Keys + {id}
    ensures r.Success? ==> forall k :: k in st.procs && k != id ==> r.value.procs[k] == st.procs[k]
    ensures r.Success? && id in st.procs ==> r.value.procs[id] == Start(st.procs[id]) && r.value.logs == st.logs
    ensures r.Success? && id !in st.procs ==>
              && r.value.procs[id] == Start(NewProc(projects[id], RunEnv(osEnv, projects[id].projectDir, p, cwd).value, launch, p))
              && r.value.procs[id].logRotation == LogRotationSeconds
              && r.value.procs[id].starts == 1
              && r.value.logs == Add(st.logs, id, ProcessBuffer(id))
  {
    if id !in projects then Failure(ProjectMissing(id))
    else
      var proj := projects[id];
      var env := RunEnv(osEnv, proj.projectDir, p, cwd);
      if env.None? then Failure(PathUnset)
      else if id in st.procs then
        if st.procs[id].running then Failure(AlreadyRunning(id))
        else Success(st.(procs := st.procs[id := Start(st.procs[id])]))
      else
        var proc := NewProc(proj, env.value, launch, p);
        Success(State(st.procs[id := Start(proc)], Add(st.logs, id, ProcessBuffer(id))))
  }

  /** The stop endpoint: 400 when nothing is registered under the id. */
  function StopProject(st: State, id: string): (r: Result<State, Failure>)
    ensures r.Failure? <==> id !in st.procs
    ensures r.Failure? ==> r.error == NoProcess
    ensures r.Success? ==> r.value == st.(procs := st.procs[id := Halt(st.procs[id])])
    ensures r.Success? ==> !r.value.procs[id].running
  {
    if id !in st.procs then Failure(NoProcess)
    else Success(st.(procs := st.procs[id := Halt(st.procs[id])]))
  }

  /**
   * The write endpoint. A running process receives the content and the
   * platform's line separator on stdin; the reply's detail is what the write returned.
   * A stopped one gets the content as its only argument and is started again,
   * with detail None. reply is the outcome of the stdin write.
   */
  function WriteProject(st: State, id: string, content: string, p: Platform, reply: Result<string, string>)
    : (r: Result<(State, Option<string>), Failure>)
    ensures r.Failure? <==> id !in st.procs || (st.procs[id].running && reply.Failure?)
    ensures id !in st.procs ==> r == Failure(NoProcess)
    ensures r.Success? ==> r.value.0.logs == st.logs && r.value.0.procs.Keys == st.procs.Keys
    ensures r.Success? ==> forall k :: k in st.procs && k != id ==> r.value.0.procs[k] == st.procs[k]
    ensures r.Success? && st.procs[id].running ==>
              && r.value.0.procs[id] == st.procs[id].(stdin := st.procs[id].stdin + [content + LineSep(p)])
              && r.value.1 == Some(reply.value)
    ensures r.Success? && !st.procs[id].running ==>
              && r.value.0.procs[id] == Start(st.procs[id].(args := [content]))
              && r.value.1 == None
  {
    if id !in st.procs then Failure(NoProcess)
    else
      var proc := st.procs[id];
      if proc.running then
        if reply.Failure? then Failure(WriteFailed(reply.error))
        else Success((st.(procs := st.procs[id := proc.(stdin := proc.stdin + [content + LineSep(p)])]), Some(reply.value)))
      else Success((st.(procs := st.procs[id := Start(proc.(args := [content]))]), None))
  }

  /**
   * Stopping and running again reuses the registered process: the same
   * command line, directory, environment and log, started once more.
   */
  lemma StopThenRunReuses(st: State, projects: map<string, Project>, id: string, osEnv: map<string, string>,
                          p: Platform, cwd: Path, launch: Launch)
    requires cwd.absolute && id in st.procs && id in projects && "PATH" in osEnv
    ensures var stopped := StopProject(st, id).value;
            var again := RunProject(stopped, projects, id, osEnv, p, cwd, launch);
            && again.Success?
            && again.value.procs[id] == st.procs[id].(running := true, starts := st.procs[id].starts + 1)
            && again.value.logs == st.logs
  {
  }

  /** Writing to a stopped instance restarts it with the content as its only argument. */
  lemma StopThenWriteRestarts(st: State, id: string, content: string, p: Platform, reply: Result<string, string>)
    requires id in st.procs
    ensures var stopped := StopProject(st, id).value;
            var w := WriteProject(stopped, id, content, p, reply);
            && w.Success? && w.value.1 == None
            && w.value.0.procs[id].running && w.value.0.procs[id].args == [content]
            && w.value.0.procs[id].cwd == st.procs[id].cwd && w.value.0.procs[id].env == st.procs[id].env
  {
  }

  /** Whether the list endpoint shows a project as running. */
  predicate ShownRunning(pid: string, procs: map<string, Proc>)
  {
    pid in procs && procs[pid].running
  }

  function Marked(proj: Project, procs: map<string, Proc>): Project
  {
    proj.(isRunning := ShownRunning(proj.projectId, procs))
  }

  /**
   * The list endpoint's inner `for ... else`: scan the registered
   * processes in registry order for one with the project's id that runs.
   */
  method AnyRunning(pid: string, order: seq<string>, procs: map<string, Proc>) returns (found: bool)
    requires forall q :: q in procs <==> q in order
    ensures found <==> ShownRunning(pid, procs)
  {
    found := false;
    var i := 0;
    while i < |order|
      invariant 0 <= i <= |order|
      invariant !found
      invariant forall j :: 0 <= j < i ==> !(order[j] == pid && procs[order[j]].running)
    {
      var q := order[i];
      if pid == q && procs[q].running {
        found := true;
        return;
      }
      i := i + 1;
    }
  }

  /** Ids of the first n projects. */
  function IdsOf(ps: seq<Project>, n: nat): set<string>
    requires n <= |ps|
  {
    set j | 0 <= j < n :: ps[j].projectId
  }

  /**
   * The list endpoint. A failed read of the project file lists nothing.
   * The result is keyed by each record's own project id; when two records
   * share one, the later wins.
   */
  method ListProjects(fetched: Result<seq<Project>, string>, order: seq<string>, procs: map<string, Proc>)
    returns (r: map<string, Project>)
    requires forall q :: q in procs <==> q in order
    ensures fetched.Failure? ==> r == map[]
    ensures fetched.Success? ==> r.Keys == IdsOf(fetched.value, |fetched.value|)
    ensures forall pid :: pid in r ==> r[pid].projectId == pid && (r[pid].isRunning <==> ShownRunning(pid, procs))
    ensures fetched.Success? ==>
              var ps := fetched.value;
              forall i :: 0 <= i < |ps| && (forall j :: i < j < |ps| ==> ps[j].projectId != ps[i].projectId) ==>
                r[ps[i].projectId] == Marked(ps[i], procs)
  {
    r := map[];
    if fetched.Failure? || |fetched.value| == 0 {
      return;
    }
    var ps := fetched.value;
    var i := 0;
    while i < |ps|
      invariant 0 <= i <= |ps|
      invariant r.Keys == IdsOf(ps, i)
      invariant forall pid :: pid in r ==> r[pid].projectId == pid && (r[pid].isRunning <==> ShownRunning(pid, procs))
      invariant forall k :: 0 <= k < i && (forall j :: k < j < i ==> ps[j].projectId != ps[k].projectId) ==>
                  r[ps[k].projectId] == Marked(ps[k], procs)
    {
      var proj := ps[i];
      var running := AnyRunning(proj.projectId, order, procs);
      r := r[proj.projectId := proj.(isRunning := running)];
      assert IdsOf(ps, i + 1) == IdsOf(ps, i) + {proj.projectId};
      i := i + 1;
    }
  }
}

=== FILE: int_parse.dfy ===
/**
 * Python's `int(s)` on text, for the ASCII subset: surrounding whitespace
 * is ignored, one optional sign, then decimal digits in which single
 * underscores may separate digits. Anything else raises ValueError (None).
 */
module IntParse {
  import opened Base

  /** The ASCII characters `str.isspace` accepts. */
  predicate IsSpace(c: char)
  {
    c == ' ' || ('\t' <= c <= '\r') || ('\U{1C}' <= c <= '\U{1F}')
  }

  predicate IsDigit(c: char)
  {
    '0' <= c <= '9'
  }

  function TrimLeft(s: string): (r: string)
    ensures |r| <= |s| && r == s[|s| - |r|..]
    ensures r != [] ==> !IsSpace(r[0])
    decreases |s|
  {
    if s != [] && IsSpace(s[0]) then TrimLeft(s[1..]) else s
  }

  function TrimRight(s: string): (r: string)
    ensures |r| <= |s| && r == s[..|r|]
    ensures r != [] ==> !IsSpace(r[|r| - 1])
    decreases |s|
  {
    if s != [] && IsSpace(s[|s| - 1]) then TrimRight(s[..|s| - 1]) else s
  }

  /** `s.strip()`. */
  function Strip(s: string): (r: string)
    ensures r != [] ==> !IsSpace(r[0]) && !IsSpace(r[|r| - 1])
  {
    var l := TrimLeft(s);
    var r := TrimRight(l);
    assert r != [] ==> r[0] == l[0];
    r
  }

  /** Digits separated by single underscores, starting and ending with a digit. */
  predicate ValidDigits(d: string)
  {
    && |d| > 0 && IsDigit(d[0]) && IsDigit(d[|d| - 1])
    && (forall i :: 0 <= i < |d| ==> IsDigit(d[i]) || d[i] == '_')
    && (forall i :: 0 <= i < |d| - 1 ==> !(d[i] == '_' && d[i + 1] == '_'))
  }

  function DigitValue(c: char): nat
    requires IsDigit(c)
  {
    (c as int) - ('0' as int)
  }

  /** The value of a digit string, underscores ignored. */
  function DigitsValue(d: string): nat
    requires forall i :: 0 <= i < |d| ==> IsDigit(d[i]) || d[i] == '_'
    decreases |d|
  {
    if d == [] then 0
    else
      var last := d[|d| - 1];
      var init := d[..|d| - 1];
      if last == '_' then DigitsValue(init) else 10 * DigitsValue(init) + DigitValue(last)
  }

  /** `int(s)`, or None where Python raises ValueError. */
  function ParseInt(s: string): (r: Option<int>)
    ensures Strip(s) == [] ==> r.None?
    ensures r.Some? ==> Strip(s) != [] && IsDigit(Strip(s)[|Strip(s)| - 1])
    ensures r.Some? ==> forall i :: 0 < i < |Strip(s)| ==> IsDigit(Strip(s)[i]) || Strip(s)[i] == '_'
    ensures r.Some? && r.value < 0 ==> Strip(s)[0] == '-'
    ensures Strip(s) != [] && IsDigit(Strip(s)[0]) ==> (r.Some? <==> ValidDigits(Strip(s)))
    ensures Strip(s) != [] && (Strip(s)[0] == '+' || Strip(s)[0] == '-') ==> (r.Some? <==> ValidDigits(Strip(s)[1..]))
  {
    ParseStripped(Strip(s))
  }

  /** `int` on text that has been stripped: an optional sign, then the digits. */
  function ParseStripped(t: string): (r: Option<int>)
    ensures t == [] ==> r.None?
    ensures r.Some? ==> t != [] && IsDigit(t[|t| - 1])
    ensures r.Some? ==> forall i :: 0 < i < |t| ==> IsDigit(t[i]) || t[i] == '_'
    ensures r.Some? && r.value < 0 ==> t[0] == '-'
    ensures t != [] && IsDigit(t[0]) ==> (r.Some? <==> ValidDigits(t))
    ensures t != [] && (t[0] == '+' || t[0] == '-') ==> (r.Some? <==> ValidDigits(t[1..]))
  {
    if t == [] then None
    else
      var negative := t[0] == '-';
      var body := if t[0] == '-' || t[0] == '+' then t[1..] else t;
      if ValidDigits(body) then
        var v: int := DigitsValue(body);
        Some(if negative then -v else v)
      else None
  }

  function DigitChar(n: nat): (c: char)
    requires n < 10
    ensures IsDigit(c) && DigitValue(c) == n
  {
    (('0' as int) + n) as char
  }

  /** The decimal text of a natural number, without leading zeros. */
  function NatText(n: nat): (r: string)
    ensures |r| > 0
    ensures forall i :: 0 <= i < |r| ==> IsDigit(r[i])
    decreases n
  {
    if n < 10 then [DigitChar(n)] else NatText(n / 10) + [DigitChar(n % 10)]
  }

  /** `str(n)`. */
  function IntText(n: int): string
  {
    if n < 0 then "-" + NatText(-n) else NatText(n)
  }

  lemma {:induction false} NatTextValue(n: nat)
    ensures DigitsValue(NatText(n)) == n
    decreases n
  {
    var t := NatText(n);
    if n >= 10 {
      NatTextValue(n / 10);
      assert t[..|t| - 1] == NatText(n / 10);
    } else {
      assert t[..|t| - 1] == [];
    }
  }

  lemma NatTextValid(n: nat)
    ensures ValidDigits(NatText(n))
  {
  }

  lemma StripUnchanged(s: string)
    requires s != [] && !IsSpace(s[0]) && !IsSpace(s[|s| - 1])
    ensures Strip(s) == s
  {
  }

  lemma IntTextEnds(n: int)
    ensures IntText(n) != [] && !IsSpace(IntText(n)[0]) && !IsSpace(IntText(n)[|IntText(n)| - 1])
  {
    if n < 0 {
      var t := NatText(-n);
      assert ("-" + t)[|"-" + t| - 1] == t[|t| - 1];
    }
  }

  /** `int(str(n)) == n` for every integer n. */
  lemma ParseIntText(n: int)
    ensures ParseInt(IntText(n)) == Some(n)
  {
    var m: nat := if n < 0 then -n else n;
    NatTextValue(m);
    NatTextValid(m);
    IntTextEnds(n);
    if n < 0 {
      ParseNegativeText(m);
    } else {
      var t := NatText(m);
      assert IsDigit(t[0]) && IsDigit(t[|t| - 1]);
      ParsePlain(t);
    }
  }

  lemma ParseNegativeText(m: nat)
    requires m > 0
    ensures ParseInt(IntText(-(m as int))) == Some(-(m as int))
  {
    var t := IntText(-(m as int));
    NatTextValue(m);
    NatTextValid(m);
    IntTextEnds(-(m as int));
    StripUnchanged(t);
    assert t == ['-'] + NatText(m);
    ParseSigned(t, '-', NatText(m));
  }

  /** The interactive port check: `int(port)` succeeds and lies in 0..65535. */
  predicate PortAccepted(s: string)
  {
    var v := ParseInt(s);
    v.Some? && 0 <= v.value <= 65535
  }

  /** The decimal text of n passes the port check exactly when n is a valid port. */
  lemma PortAcceptedText(n: int)
    ensures PortAccepted(IntText(n)) <==> 0 <= n <= 65535
  {
    ParseIntText(n);
  }

  /** Surrounding whitespace is ignored. */
  lemma PaddedPortAccepted()
    ensures ParseInt(" 80\n") == Some(80)
  {
    StripPadded();
    assert Strip("80") == "80";
    ParseByStrip(" 80\n", "80");
    EightyParses();
  }

  lemma StripPadded()
    ensures Strip(" 80\n") == "80"
  {
    assert TrimLeft(" 80\n") == "80\n" by {
      assert " 80\n"[1..] == "80\n";
    }
    assert TrimRight("80\n") == "80" by {
      assert "80\n"[..2] == "80";
    }
  }

  /** Text that strips to unsigned digits parses by those digits alone. */
  lemma ParseUnsigned(s: string, t: string)
    requires Strip(s) == t && t != [] && IsDigit(t[0])
    ensures ParseInt(s) == if ValidDigits(t) then Some(DigitsValue(t) as int) else None
  {
  }

  /** Text that strips to a sign and t parses by the digits of t, negated after '-'. */
  lemma ParseSigned(s: string, c: char, t: string)
    requires Strip(s) == [c] + t && (c == '+' || c == '-')
    ensures ParseInt(s) == if ValidDigits(t) then Some(if c == '-' then -(DigitsValue(t) as int) else DigitsValue(t) as int) else None
  {
    assert Strip(s)[1..] == t;
  }

  /** A leading '+' is accepted: the port prompt takes "+80" as 80. */
  lemma PlusSignedPort()
    ensures ParseInt("+80") == Some(80) && PortAccepted("+80")
  {
    assert Strip("+80") == "+80";
    assert "+80"[1..] == "80";
    assert ValidDigits("80");
    DigitsEighty();
  }

  /** Leading zeros are accepted after '-': "-007" reads as -7, which the port prompt rejects. */
  lemma MinusZeroPadded()
    ensures ParseInt("-007") == Some(-7) && !PortAccepted("-007")
  {
    assert Strip("-007") == "-007";
    assert "-007"[1..] == "007";
    assert ValidDigits("007");
    assert DigitsValue("007") == 7 by {
      assert "007"[..2] == "00";
      assert "00"[..1] == "0";
      assert "0"[..0] == "";
    }
  }

  /** `int` sees only the stripped text. */
  lemma ParseByStrip(s: string, t: string)
    requires Strip(s) == Strip(t)
    ensures ParseInt(s) == ParseInt(t)
  {
  }

  lemma EightyParses()
    ensures ParseInt("80") == Some(80)
  {
    var d := "80";
    assert ValidDigits(d);
    DigitsEighty();
    ParsePlain(d);
  }

  lemma DigitsEighty()
    ensures DigitsValue("80") == 80
  {
    assert "80"[..1] == "8";
    assert "8"[..0] == "";
  }

  /** Unsigned text that is already stripped parses by its digits alone. */
  lemma ParsePlain(s: string)
    requires s != [] && IsDigit(s[0]) && IsDigit(s[|s| - 1])
    ensures ParseInt(s) == if ValidDigits(s) then Some(DigitsValue(s) as int) else None
  {
    StripUnchanged(s);
    ParseUnsigned(s, s);
  }

  /** Single underscores may separate digits. */
  lemma UnderscoredPort()
    ensures ParseInt("1_0") == Some(10)
  {
    var d := "1_0";
    assert ValidDigits(d);
    assert DigitsValue(d) == 10 by {
      assert d[..2] == "1_";
      assert "1_"[..1] == "1";
      assert "1"[..0] == "";
    }
    ParsePlain(d);
  }

  /** The default port "12345" passes the port check. */
  lemma DefaultPortAccepted()
    ensures ParseInt("12345") == Some(12345) && PortAccepted("12345")
  {
    var d := "12345";
    assert ValidDigits(d);
    assert DigitsValue(d) == 12345 by {
      assert d[..4] == "1234";
      assert "1234"[..3] == "123";
      assert "123"[..2] == "12";
      assert "12"[..1] == "1";
      assert "1"[..0] == "";
    }
    ParsePlain(d);
  }

  /** Two underscores in a row are rejected. */
  lemma DoubleUnderscoreRejected()
    ensures ParseInt("1__0") == None
  {
    ParsePlain("1__0");
    assert !ValidDigits("1__0") by {
      assert "1__0"[1] == '_' && "1__0"[2] == '_';
    }
  }
}

=== FILE: logs.dfy ===
/**
 * Log entries and the process-wide log registry: the map from key to log
 * buffer that the endpoints register task logs in, together with the queue
 * of removals each registration schedules 600 seconds ahead.
 */
module Logs {

  datatype Level = Info | Warning | Error

  datatype LogEntry = LogEntry(level: Level, message: string)

  /** A log entry at the default level, INFO. */
  function Note(message: string): LogEntry
  {
    LogEntry(Info, message)
  }

  const ProcessingMsg: string := "Processing at 3s..."
  const FailedMsg: string := "❗ Failed..."
  const DoneMsg: string := "✨ Done!"
  const ClearedMsg: string := "All files about project have been cleared."

  /** Seconds between registering a task log and its removal. */
  const EvictionDelay: nat := 600

  /**
   * What a key names: a task's own buffer, or the buffer a managed
   * process owns (registered under the project id).
   */
  datatype Buffer =
    | TaskBuffer(entries: seq<LogEntry>)
    | ProcessBuffer(owner: string)

  /**
   * The registry and its pending removals. Every removal is scheduled with
   * the same delay, so they fire in the order they were scheduled.
   */
  datatype Registry = Registry(storages: map<string, Buffer>, pending: seq<string>)

  const EmptyRegistry: Registry := Registry(map[], [])

  /** `add_storage`: the key now names b; every other key is untouched. */
  function Add(r: Registry, key: string, b: Buffer): (r': Registry)
    ensures key in r'.storages && r'.storages[key] == b
    ensures r'.storages.Keys == r.storages.Keys + {key}
    ensures forall k :: k in r.storages && k != key ==> r'.storages[k] == r.storages[k]
    ensures r'.pending == r.pending
  {
    r.(storages := r.storages[key := b])
  }

  /**
   * What every task endpoint does before starting its task: register an
   * empty buffer under the key and schedule the key's removal.
   */
  function OpenTaskLog(r: Registry, key: string): (r': Registry)
    ensures key in r'.storages && r'.storages[key] == TaskBuffer([])
    ensures r'.storages.Keys == r.storages.Keys + {key}
    ensures forall k :: k in r.storages && k != key ==> r'.storages[k] == r.storages[k]
    ensures |r'.pending| == |r.pending| + 1 && r'.pending[|r.pending|] == key
    ensures r'.pending[..|r.pending|] == r.pending
  {
    var added := Add(r, key, TaskBuffer([]));
    added.(pending := added.pending + [key])
  }

  /**
   * The earliest scheduled removal fires: `storages.pop(key)`. A pop of a
   * key already gone raises inside the timer callback and changes nothing.
   */
  function Fire(r: Registry): (r': Registry)
    requires |r.pending| > 0
    ensures r'.storages.Keys == r.storages.Keys - {r.pending[0]}
    ensures forall k :: k in r'.storages ==> r'.storages[k] == r.storages[k]
    ensures r'.pending == r.pending[1..]
  {
    Registry(r.storages - {r.pending[0]}, r.pending[1..])
  }

  /** The first n scheduled removals fire, in order. */
  function FireN(r: Registry, n: nat): (r': Registry)
    requires n <= |r.pending|
    ensures r'.pending == r.pending[n..]
    ensures r'.storages.Keys <= r.storages.Keys
    decreases n
  {
    if n == 0 then r else Fire(FireN(r, n - 1))
  }

  /**
   * A detached task appends its entries to its buffer. After the key has
   * been removed the task still writes to the buffer object, but nothing
   * reachable through the registry changes.
   */
  function Deliver(r: Registry, key: string, entries: seq<LogEntry>): (r': Registry)
    ensures key !in r.storages ==> r' == r
    ensures r'.storages.Keys == r.storages.Keys && r'.pending == r.pending
    ensures forall k :: k in r.storages && k != key ==> r'.storages[k] == r.storages[k]
    ensures key in r.storages && r.storages[key].TaskBuffer? ==>
              r'.storages[key] == TaskBuffer(r.storages[key].entries + entries)
  {
    if key in r.storages && r.storages[key].TaskBuffer? then
      r.(storages := r.storages[key := TaskBuffer(r.storages[key].entries + entries)])
    else r
  }

  /** A key not among the first n scheduled removals survives them, unchanged. */
  lemma {:induction false} SurvivesEarlierEvictions(r: Registry, key: string, n: nat)
    requires n <= |r.pending|
    requires key in r.storages
    requires forall i :: 0 <= i < n ==> r.pending[i] != key
    ensures key in FireN(r, n).storages && FireN(r, n).storages[key] == r.storages[key]
    decreases n
  {
    if n > 0 {
      SurvivesEarlierEvictions(r, key, n - 1);
      var before := FireN(r, n - 1);
      assert before.pending[0] == r.pending[n - 1];
    }
  }

  /** Once the removal scheduled at position n has fired, the key is gone. */
  lemma GoneAfterItsEviction(r: Registry, n: nat)
    requires n < |r.pending|
    ensures r.pending[n] !in FireN(r, n + 1).storages
  {
    assert FireN(r, n).pending[0] == r.pending[n];
  }

  /**
   * The life of a task log under a fresh key: it can be read (holding what
   * the task delivered) until every removal scheduled before it has fired,
   * and it is gone right after its own removal fires.
   */
  lemma TaskLogLifetime(r: Registry, key: string, entries: seq<LogEntry>)
    requires key !in r.storages && key !in r.pending
    ensures var started := Deliver(OpenTaskLog(r, key), key, entries);
            && key in FireN(started, |r.pending|).storages
            && FireN(started, |r.pending|).storages[key] == TaskBuffer(entries)
            && key !in FireN(started, |r.pending| + 1).storages
  {
    var started := Deliver(OpenTaskLog(r, key), key, entries);
    assert started.storages[key] == TaskBuffer([] + entries);
    assert [] + entries == entries;
    forall i | 0 <= i < |r.pending|
      ensures started.pending[i] != key
    {
      assert started.pending[i] == r.pending[i];
    }
    SurvivesEarlierEvictions(started, key, |r.pending|);
    GoneAfterItsEviction(started, |r.pending|);
  }
}

=== FILE: module_tasks.dfy ===
/**
 * The install and uninstall endpoints for store modules and the detached
 * tasks they start. A task logs its progress, runs pip, classifies the
 * module, records it in (or removes it from) the project config, and logs
 * "✨ Done!"; a caught failure logs the error and "❗ Failed...".
 */
module ModuleTasks {
  import opened Base
  import opened Logs
  import opened Pipeline
  import opened Classify
  import opened Projects

  datatype Op = AddOp | RemoveOp

  /** Which list of the project config an update touches; drivers are kept per environment. */
  datatype Target = Plugins | Adapters | Drivers(env: string)

  datatype Update = Update(op: Op, target: Target, item: ModuleInfo)

  /**
   * The config update a classified module calls for. A "plugin" link whose
   * body did not parse as a Plugin, and any unknown kind, call for none.
   */
  function UpdateFor(op: Op, kind: Kind, m: ModuleInfo, env: string): (u: Option<Update>)
    ensures u.Some? ==> u.value.op == op && u.value.item == m
    ensures (u.Some? && u.value.target == Plugins) <==> (kind == PluginKind && m.isPlugin)
    ensures (u.Some? && u.value.target == Adapters) <==> kind == AdapterKind
    ensures (u.Some? && u.value.target.Drivers?) <==> kind == DriverKind
    ensures u.Some? && u.value.target.Drivers? ==> u.value.target.env == env
  {
    match kind
    case PluginKind => if m.isPlugin then Some(Update(op, Plugins, m)) else None
    case AdapterKind => Some(Update(op, Adapters, m))
    case DriverKind => Some(Update(op, Drivers(env), m))
    case OtherKind(_) => None
  }

  /** What a finished task leaves behind. */
  datatype TaskResult = TaskResult(
    log: seq<LogEntry>,
    pip: PipCall,
    applied: Option<Update>,  // the config change that took effect
    ending: Ending,
    escapes: bool)            // an exception leaves the detached task

  function Verb(op: Op): string
  {
    if op == AddOp then "Install" else "Uninstall"
  }

  /** The first two entries every module task logs. */
  function Header(op: Op, m: ModuleInfo): seq<LogEntry>
  {
    [Note(ProcessingMsg), Note(Verb(op) + " module name: " + m.moduleName)]
  }

  /** Install classifies with the "~" override; uninstall always reads the link. */
  function TaskKind(op: Op, m: ModuleInfo): Option<Kind>
  {
    if op == AddOp then InstallKind(m.moduleName, m.projectLink) else LinkKind(m.projectLink)
  }

  function PlannedUpdate(op: Op, m: ModuleInfo, env: string): Option<Update>
  {
    match TaskKind(op, m)
    case None => None
    case Some(k) => UpdateFor(op, k, m, env)
  }

  /** The four stages: pip, classification, config update, done. */
  function Stages(op: Op, m: ModuleInfo, env: string, pip: Installer, updateStep: Step): seq<Stage>
  {
    [ Stage(Header(op, m) + pip.output, Caught(pip.result)),
      Stage([], if TaskKind(op, m).Some? then Ok else Raise),
      Stage([], if PlannedUpdate(op, m, env).Some? then Caught(updateStep) else Ok),
      Stage([Note(DoneMsg)], Ok) ]
  }

  function PipCallFor(op: Op, m: ModuleInfo, mirrorUrl: string): PipCall
  {
    if op == AddOp then PipCall(PipInstall, [m.projectLink], ["-i", mirrorUrl])
    else PipCall(PipUninstall, [m.projectLink], [])
  }

  /**
   * The detached task. pip and updateStep are the outcomes of the external
   * operations; updateStep is consulted only when an update is made.
   * Install re-raises a caught failure after logging it; uninstall returns.
   */
  function ModuleTask(op: Op, m: ModuleInfo, env: string, mirrorUrl: string, pip: Installer, updateStep: Step): (r: TaskResult)
    ensures r.pip == PipCallFor(op, m, mirrorUrl)
    ensures r.applied.Some? ==> r.ending.Completed? && r.applied == PlannedUpdate(op, m, env) && updateStep.Pass?
    ensures r.escapes <==> r.ending.Aborted? || (op == AddOp && r.ending.Failed?)
  {
    var run := Execute(Stages(op, m, env, pip, updateStep), [Note(FailedMsg)]);
    RunOfStages(op, m, env, pip, updateStep);
    TaskResult(
      run.log,
      PipCallFor(op, m, mirrorUrl),
      if run.passed >= 3 then PlannedUpdate(op, m, env) else None,
      run.ending,
      run.ending.Aborted? || (op == AddOp && run.ending.Failed?))
  }

  /** Unfolds a run of the four stages. */
  lemma RunOfStages(op: Op, m: ModuleInfo, env: string, pip: Installer, updateStep: Step)
    ensures var st := Stages(op, m, env, pip, updateStep);
            var h := [Note(FailedMsg)];
            Execute(st, h) ==
              if pip.result.Throw? then Run(Header(op, m) + pip.output + [LogEntry(Error, pip.result.msg)] + h, 0, Failed(pip.result.msg))
              else if TaskKind(op, m).None? then Run(Header(op, m) + pip.output, 1, Aborted)
              else if PlannedUpdate(op, m, env).Some? && updateStep.Throw? then
                Run(Header(op, m) + pip.output + [LogEntry(Error, updateStep.msg)] + h, 2, Failed(updateStep.msg))
              else Run(Header(op, m) + pip.output + [Note(DoneMsg)], 4, Completed)
  {
    var st := Stages(op, m, env, pip, updateStep);
    var h := [Note(FailedMsg)];
    var done := Stage([Note(DoneMsg)], Ok);
    assert st[1..] == [st[1], st[2], done];
    assert st[1..][1..] == [st[2], done];
    assert st[1..][1..][1..] == [done];
    assert [done][1..] == [];
    assert Execute([], h) == Run([], 0, Completed);
    assert [Note(DoneMsg)] + [] == [Note(DoneMsg)];
    var e3 := Execute([done], h);
    assert e3 == Run([Note(DoneMsg)], 1, Completed);
    var e2 := Execute([st[2], done], h);
    var e1 := Execute(st[1..], h);
    if pip.result.Pass? && TaskKind(op, m).Some? {
      assert e1 == Run(e2.log, e2.passed + 1, e2.ending);
    }
  }

  /**
   * Success: the header, pip's output, then "✨ Done!" — the pip exit code
   * plays no part — and the planned config change takes effect.
   */
  lemma TaskSucceeds(op: Op, m: ModuleInfo, env: string, mirrorUrl: string, pip: Installer, updateStep: Step)
    requires pip.result.Pass? && TaskKind(op, m).Some?
    requires PlannedUpdate(op, m, env).Some? ==> updateStep.Pass?
    ensures var r := ModuleTask(op, m, env, mirrorUrl, pip, updateStep);
            && r.log == Header(op, m) + pip.output + [Note(DoneMsg)]
            && r.applied == PlannedUpdate(op, m, env)
            && r.ending == Completed && !r.escapes
  {
    RunOfStages(op, m, env, pip, updateStep);
  }

  /** A pip failure logs ERROR(text) and "❗ Failed...", and nothing is classified or changed. */
  lemma InstallerFails(op: Op, m: ModuleInfo, env: string, mirrorUrl: string, pip: Installer, updateStep: Step)
    requires pip.result.Throw?
    ensures var r := ModuleTask(op, m, env, mirrorUrl, pip, updateStep);
            && r.log == Header(op, m) + pip.output + [LogEntry(Error, pip.result.msg), Note(FailedMsg)]
            && r.applied == None
            && r.escapes == (op == AddOp)
  {
    RunOfStages(op, m, env, pip, updateStep);
  }

  /** A failing config update logs ERROR(text) and "❗ Failed...", never "✨ Done!". */
  lemma UpdateFails(op: Op, m: ModuleInfo, env: string, mirrorUrl: string, pip: Installer, updateStep: Step)
    requires pip.result.Pass? && PlannedUpdate(op, m, env).Some? && updateStep.Throw?
    ensures var r := ModuleTask(op, m, env, mirrorUrl, pip, updateStep);
            && r.log == Header(op, m) + pip.output + [LogEntry(Error, updateStep.msg), Note(FailedMsg)]
            && r.applied == None
            && r.escapes == (op == AddOp)
  {
    assert TaskKind(op, m).Some?;
    RunOfStages(op, m, env, pip, updateStep);
  }

  /**
   * An unclassifiable link raises inside the task after pip has run: no
   * ERROR entry, no "✨ Done!", no config change. For uninstall this leaves
   * the package removed and the config still listing it.
   */
  lemma Unclassified(op: Op, m: ModuleInfo, env: string, mirrorUrl: string, pip: Installer, updateStep: Step)
    requires pip.result.Pass? && TaskKind(op, m).None?
    ensures var r := ModuleTask(op, m, env, mirrorUrl, pip, updateStep);
            && r.log == Header(op, m) + pip.output
            && r.pip == PipCallFor(op, m, mirrorUrl)
            && r.applied == None && r.ending == Aborted && r.escapes
  {
    RunOfStages(op, m, env, pip, updateStep);
  }

  /**
   * A module name with "~" installs as a driver whatever its link says:
   * the log and ending do not depend on the link, and any change made is to
   * the drivers of the given environment.
   */
  lemma TildeInstallIgnoresLink(m: ModuleInfo, link: string, env: string, mirrorUrl: string, pip: Installer, updateStep: Step)
    requires '~' in m.moduleName
    ensures var r := ModuleTask(AddOp, m, env, mirrorUrl, pip, updateStep);
            var r' := ModuleTask(AddOp, m.(projectLink := link), env, mirrorUrl, pip, updateStep);
            && r.log == r'.log && r.ending == r'.ending
            && (r.applied.Some? ==> r.applied.value.target == Drivers(env))
  {
    var m' := m.(projectLink := link);
    RunOfStages(AddOp, m, env, pip, updateStep);
    RunOfStages(AddOp, m', env, pip, updateStep);
  }

  /** The HTTP reply of either module endpoint. */
  datatype Response =
    | LogKey(key: string)
    | ProjectNotFound(projectId: string)  // 400
    | InvalidModule                       // the body parses as neither Plugin nor SimpleInfo

  /**
   * The synchronous part of either endpoint: the project must exist, then
   * the module body must parse; only then is the log key registered, its
   * removal scheduled, and the key returned.
   */
  function Submit(r: Registry, projects: set<string>, projectId: string, parsed: Option<ModuleInfo>, key: string): (out: (Registry, Response))
    ensures out.1 == LogKey(key) <==> projectId in projects && parsed.Some?
    ensures projectId !in projects ==> out.1 == ProjectNotFound(projectId)
    ensures out.1 != LogKey(key) ==> out.0 == r
    ensures out.1 == LogKey(key) ==> out.0 == OpenTaskLog(r, key)
  {
    if projectId !in projects then (r, ProjectNotFound(projectId))
    else if parsed.None? then (r, InvalidModule)
    else (OpenTaskLog(r, key), LogKey(key))
  }

  /**
   * A request followed by its task running to completion before the key
   * is evicted: the returned key names a buffer holding exactly the task's log.
   */
  lemma KeyShowsTaskLog(r: Registry, projects: set<string>, projectId: string, m: ModuleInfo, key: string,
                        op: Op, env: string, mirrorUrl: string, pip: Installer, updateStep: Step)
    requires projectId in projects
    ensures var (r1, resp) := Submit(r, projects, projectId, Some(m), key);
            var task := ModuleTask(op, m, env, mirrorUrl, pip, updateStep);
            var r2 := Deliver(r1, key, task.log);
            && resp == LogKey(key)
            && r2.storages[key] == TaskBuffer(task.log)
            && r2.pending[|r2.pending| - 1] == key
  {
    var task := ModuleTask(op, m, env, mirrorUrl, pip, updateStep);
    assert [] + task.log == task.log;
  }
}

=== FILE: paths.dfy ===
/**
 * The part of Python's pathlib the handlers rely on: turning a string into
 * components, the `/` operator, `absolute()` and the text form of a path.
 * Windows drive letters, UNC prefixes and the POSIX double-slash root are
 * not modelled.
 */
module Paths {

  datatype Platform = Win32 | Posix

  /** A parsed path: whether it is rooted, and its components. */
  datatype Path = Path(absolute: bool, parts: seq<string>)

  /** '/' separates components everywhere; '\\' only on Windows. */
  predicate IsSep(c: char, p: Platform)
  {
    c == '/' || (p == Win32 && c == '\\')
  }

  /** The separator the platform writes when it renders a path. */
  function SepChar(p: Platform): (c: char)
    ensures IsSep(c, p)
  {
    if p == Win32 then '\\' else '/'
  }

  /** A component as pathlib keeps it: non-empty, not ".", no separator. */
  predicate GoodPart(x: string, p: Platform)
  {
    x != "" && x != "." && forall i :: 0 <= i < |x| ==> !IsSep(x[i], p)
  }

  predicate WellFormed(q: Path, p: Platform)
  {
    forall i :: 0 <= i < |q.parts| ==> GoodPart(q.parts[i], p)
  }

  /** Index of the first separator in s, or |s| when there is none. */
  function FirstSep(s: string, p: Platform): (k: nat)
    ensures k <= |s|
    ensures forall i :: 0 <= i < k ==> !IsSep(s[i], p)
    ensures k < |s| ==> IsSep(s[k], p)
    decreases |s|
  {
    if s == [] then 0
    else if IsSep(s[0], p) then 0
    else 1 + FirstSep(s[1..], p)
  }

  /** The components of s: the runs between separators, with empty runs and "." dropped. */
  function Components(s: string, p: Platform): (r: seq<string>)
    ensures forall i :: 0 <= i < |r| ==> GoodPart(r[i], p)
    decreases |s|
  {
    if s == [] then []
    else
      var k := FirstSep(s, p);
      var head := s[..k];
      (if head == "" || head == "." then [] else [head])
      + (if k < |s| then Components(s[k + 1..], p) else [])
  }

  /** `Path(s)`: rooted when s starts with a separator. */
  function Parse(s: string, p: Platform): (r: Path)
    ensures WellFormed(r, p)
    ensures r.absolute <==> |s| > 0 && IsSep(s[0], p)
  {
    Path(|s| > 0 && IsSep(s[0], p), Components(s, p))
  }

  /** `a / b`: a rooted right operand replaces the left one. */
  function Div(a: Path, b: Path): (r: Path)
    ensures b.absolute ==> r == b
    ensures !b.absolute ==> r.absolute == a.absolute && r.parts == a.parts + b.parts
  {
    if b.absolute then b else Path(a.absolute, a.parts + b.parts)
  }

  /** Joining two well-formed paths gives a well-formed path. */
  lemma DivWellFormed(a: Path, b: Path, p: Platform)
    requires WellFormed(a, p) && WellFormed(b, p)
    ensures WellFormed(Div(a, b), p)
  {
    if !b.absolute {
      var r := Div(a, b);
      forall i | 0 <= i < |r.parts| ensures GoodPart(r.parts[i], p) {
        if i >= |a.parts| {
          assert r.parts[i] == b.parts[i - |a.parts|];
        }
      }
    }
  }

  /** `q.absolute()`: a relative path is resolved against the working directory. */
  function Absolute(q: Path, cwd: Path): (r: Path)
    requires cwd.absolute
    ensures r.absolute
    ensures q.absolute ==> r == q
    ensures !q.absolute ==> r.parts == cwd.parts + q.parts
  {
    Div(cwd, q)
  }

  function JoinWith(parts: seq<string>, sep: char): string
  {
    if |parts| == 0 then ""
    else if |parts| == 1 then parts[0]
    else parts[0] + [sep] + JoinWith(parts[1..], sep)
  }

  /** `str(q)`: a relative path with no components renders as ".". */
  function Text(q: Path, p: Platform): (r: string)
    ensures WellFormed(q, p) ==> r != [] && (IsSep(r[0], p) <==> q.absolute)
  {
    if q.absolute then [SepChar(p)] + JoinWith(q.parts, SepChar(p))
    else if q.parts == [] then "."
    else if WellFormed(q, p) then
      JoinStartsWithPart(q.parts, p);
      JoinWith(q.parts, SepChar(p))
    else JoinWith(q.parts, SepChar(p))
  }

  lemma {:induction false} FirstSepAfterPart(x: string, t: string, p: Platform)
    requires forall i :: 0 <= i < |x| ==> !IsSep(x[i], p)
    requires |t| > 0 && IsSep(t[0], p)
    ensures FirstSep(x + t, p) == |x|
    decreases |x|
  {
    if x == [] {
      assert x + t == t;
    } else {
      assert (x + t)[1..] == x[1..] + t;
      FirstSepAfterPart(x[1..], t, p);
    }
  }

  lemma {:induction false} FirstSepOfPart(x: string, p: Platform)
    requires forall i :: 0 <= i < |x| ==> !IsSep(x[i], p)
    ensures FirstSep(x, p) == |x|
    decreases |x|
  {
    if x != [] {
      FirstSepOfPart(x[1..], p);
    }
  }

  /** A good part followed by a separator contributes exactly itself. */
  lemma ComponentsStep(x: string, rest: string, p: Platform)
    requires GoodPart(x, p)
    ensures Components(x + [SepChar(p)] + rest, p) == [x] + Components(rest, p)
  {
    var sep := SepChar(p);
    var s := x + [sep] + rest;
    assert s == x + ([sep] + rest);
    FirstSepAfterPart(x, [sep] + rest, p);
    assert s[..|x|] == x;
    assert s[|x| + 1..] == rest;
  }

  /** Splitting the joined text of well-formed components gives them back. */
  lemma {:induction false} ComponentsOfJoin(parts: seq<string>, p: Platform)
    requires forall i :: 0 <= i < |parts| ==> GoodPart(parts[i], p)
    ensures Components(JoinWith(parts, SepChar(p)), p) == parts
    decreases |parts|
  {
    var sep := SepChar(p);
    if |parts| == 1 {
      var x := parts[0];
      assert GoodPart(x, p);
      FirstSepOfPart(x, p);
      assert x[..|x|] == x;
    } else if |parts| > 1 {
      assert GoodPart(parts[0], p);
      ComponentsStep(parts[0], JoinWith(parts[1..], sep), p);
      ComponentsOfJoin(parts[1..], p);
      assert [parts[0]] + parts[1..] == parts;
    }
  }

  /** A leading separator adds an empty run, which is dropped. */
  lemma ComponentsAfterRoot(j: string, p: Platform)
    ensures Components([SepChar(p)] + j, p) == Components(j, p)
  {
    var s := [SepChar(p)] + j;
    assert FirstSep(s, p) == 0;
    assert s[..0] == "";
    assert s[1..] == j;
  }

  /** The joined text of a non-empty list of good parts starts with a part's character. */
  lemma JoinStartsWithPart(parts: seq<string>, p: Platform)
    requires |parts| > 0 && GoodPart(parts[0], p)
    ensures JoinWith(parts, SepChar(p)) != [] && !IsSep(JoinWith(parts, SepChar(p))[0], p)
  {
    var sep := SepChar(p);
    if |parts| > 1 {
      var j := parts[0] + [sep] + JoinWith(parts[1..], sep);
      assert JoinWith(parts, sep) == j;
      assert j[0] == parts[0][0];
    }
  }

  /** Parsing the text form of a well-formed path gives the path back. */
  lemma ParseText(q: Path, p: Platform)
    requires WellFormed(q, p)
    ensures Parse(Text(q, p), p) == q
  {
    var sep := SepChar(p);
    var j := JoinWith(q.parts, sep);
    ComponentsOfJoin(q.parts, p);
    if q.absolute {
      ComponentsAfterRoot(j, p);
    } else if q.parts == [] {
      assert FirstSep(".", p) == 1;
    } else {
      JoinStartsWithPart(q.parts, p);
    }
  }
}

=== FILE: pipeline.dfy ===
/**
 * The shape every background task shares: a fixed list of stages, each
 * logging its progress and then performing one operation. The first stage
 * whose operation fails ends the task; a failure the task catches logs one
 * ERROR entry with the error text followed by the task's own failure
 * entries, and an exception the task does not catch ends it silently.
 */
module Pipeline {
  import opened Logs

  /** The result of an operation the task wraps in `try ... except Exception`. */
  datatype Step = Pass | Throw(msg: string)

  /** How one stage's operation ends. */
  datatype Outcome =
    | Ok
    | Err(msg: string)   // caught: logged as an ERROR entry
    | Raise              // not caught inside the task: nothing more is logged

  function Caught(s: Step): (o: Outcome)
    ensures o.Ok? <==> s.Pass?
    ensures s.Throw? ==> o == Err(s.msg)
  {
    match s
    case Pass => Ok
    case Throw(m) => Err(m)
  }

  function Uncaught(succeeds: bool): (o: Outcome)
    ensures o.Ok? <==> succeeds
    ensures !o.Err?
  {
    if succeeds then Ok else Raise
  }

  datatype Stage = Stage(progress: seq<LogEntry>, outcome: Outcome)

  datatype Ending = Completed | Failed(msg: string) | Aborted

  /** The log a task leaves, how many stages succeeded, and how it ended. */
  datatype Run = Run(log: seq<LogEntry>, passed: nat, ending: Ending)

  function EndingOf(o: Outcome): Ending
  {
    match o
    case Ok => Completed
    case Err(m) => Failed(m)
    case Raise => Aborted
  }

  /** Runs the stages in order until the first one that does not succeed. */
  function Execute(stages: seq<Stage>, handler: seq<LogEntry>): (r: Run)
    ensures r.passed <= |stages|
    ensures forall i :: 0 <= i < r.passed ==> stages[i].outcome.Ok?
    ensures r.ending.Completed? <==> r.passed == |stages|
    ensures r.passed < |stages| ==> r.ending == EndingOf(stages[r.passed].outcome)
    decreases |stages|
  {
    if |stages| == 0 then Run([], 0, Completed)
    else
      var s := stages[0];
      match s.outcome
      case Ok =>
        var rest := Execute(stages[1..], handler);
        Run(s.progress + rest.log, rest.passed + 1, rest.ending)
      case Err(m) => Run(s.progress + [LogEntry(Error, m)] + handler, 0, Failed(m))
      case Raise => Run(s.progress, 0, Aborted)
  }

  /** The first stage always starts: its progress opens the log. */
  lemma FirstProgressLeads(stages: seq<Stage>, handler: seq<LogEntry>)
    requires |stages| > 0
    ensures var r := Execute(stages, handler);
            |stages[0].progress| <= |r.log| && r.log[..|stages[0].progress|] == stages[0].progress
  {
  }

  /** The progress entries of the given stages, in order. */
  function Flatten(stages: seq<Stage>): seq<LogEntry>
    decreases |stages|
  {
    if |stages| == 0 then [] else stages[0].progress + Flatten(stages[1..])
  }

  /** Flattening from stage i is stage i's progress followed by the flattening from i + 1. */
  lemma FlattenFrom(stages: seq<Stage>, i: nat)
    requires i < |stages|
    ensures Flatten(stages[i..]) == stages[i].progress + Flatten(stages[i + 1..])
  {
    assert stages[i..][1..] == stages[i + 1..];
  }

  /** How many stages started: those that succeeded plus the one that stopped the run. */
  function Reached(stages: seq<Stage>, r: Run): nat
  {
    if r.passed < |stages| then r.passed + 1 else |stages|
  }

  /** What a run appends after the last stage's progress. */
  function Closing(e: Ending, handler: seq<LogEntry>): seq<LogEntry>
  {
    if e.Failed? then [LogEntry(Error, e.msg)] + handler else []
  }

  /**
   * The log of a run is exactly the progress of every stage that started,
   * followed by the ERROR entry and the failure entries when a caught
   * failure stopped it.
   */
  lemma {:induction false} ExecuteLog(stages: seq<Stage>, handler: seq<LogEntry>)
    ensures var r := Execute(stages, handler);
            r.log == Flatten(stages[..Reached(stages, r)]) + Closing(r.ending, handler)
    decreases |stages|
  {
    var r := Execute(stages, handler);
    if |stages| > 0 {
      var s := stages[0];
      var k := Reached(stages, r);
      assert stages[..k][0] == s;
      assert Flatten(stages[..k]) == s.progress + Flatten(stages[..k][1..]);
      if s.outcome.Ok? {
        var tail := stages[1..];
        var rest := Execute(tail, handler);
        ExecuteLog(tail, handler);
        assert stages[..k][1..] == tail[..Reached(tail, rest)];
      } else {
        assert k == 1;
        assert stages[..k][1..] == [];
      }
    }
  }

  /** Once a stage fails, nothing after it matters: no later stage runs. */
  lemma {:induction false} StopsAtFailure(stages: seq<Stage>, more: seq<Stage>, handler: seq<LogEntry>, k: nat)
    requires k < |stages| && !stages[k].outcome.Ok?
    ensures Execute(stages + more, handler) == Execute(stages, handler)
    decreases |stages|
  {
    var all := stages + more;
    assert all[0] == stages[0];
    if stages[0].outcome.Ok? {
      assert k > 0;
      assert all[1..] == stages[1..] + more;
      StopsAtFailure(stages[1..], more, handler, k - 1);
    }
  }

  /** A run in which every stage succeeds logs every stage's progress and completes. */
  lemma {:induction false} AllPass(stages: seq<Stage>, handler: seq<LogEntry>)
    requires forall i :: 0 <= i < |stages| ==> stages[i].outcome.Ok?
    ensures Execute(stages, handler) == Run(Flatten(stages), |stages|, Completed)
    decreases |stages|
  {
    if |stages| > 0 {
      AllPass(stages[1..], handler);
    }
  }

  /** A run whose stage k is the first failure, caught with text msg. */
  lemma FailsAt(stages: seq<Stage>, h: seq<LogEntry>, k: nat, msg: string)
    requires k < |stages| && stages[k].outcome == Err(msg)
    requires forall i :: 0 <= i < k ==> stages[i].outcome.Ok?
    ensures Execute(stages, h).passed == k
    ensures Execute(stages, h).ending == Failed(msg)
    ensures Execute(stages, h).log == Flatten(stages[..k + 1]) + [LogEntry(Error, msg)] + h
  {
    ExecuteLog(stages, h);
  }
}

=== FILE: projects.dfy ===
/** Records the project endpoints share: store modules, project records, installer calls. */
module Projects {
  import opened Base
  import opened Paths
  import opened Logs
  import opened Pipeline

  /**
   * A store module as an endpoint receives it. isPlugin records whether
   * the body also parsed as a Plugin (a plugin carries more fields than the
   * plain SimpleInfo every module parses as).
   */
  datatype ModuleInfo = ModuleInfo(moduleName: string, projectLink: string, isPlugin: bool)

  /** A project record as the project manager stores it. */
  datatype Project = Project(
    projectId: string,
    projectName: string,
    projectDir: Path,
    mirrorUrl: string,
    adapters: seq<ModuleInfo>,
    drivers: seq<ModuleInfo>,
    pythonPath: Option<string>,
    isRunning: bool)

  datatype PipAction = PipInstall | PipUninstall

  /** What a task asks pip to do. */
  datatype PipCall = PipCall(action: PipAction, packages: seq<string>, options: seq<string>)

  /**
   * A pip run as a task sees it: the lines pip wrote into the task's log,
   * and whether starting or awaiting it raised. The exit code is never
   * inspected, so a failing install that exits non-zero still counts as Pass.
   */
  datatype Installer = Installer(output: seq<LogEntry>, result: Step)

  function Links(ms: seq<ModuleInfo>): (r: seq<string>)
    ensures |r| == |ms|
    ensures forall i :: 0 <= i < |ms| ==> r[i] == ms[i].projectLink
  {
    seq(|ms|, i requires 0 <= i < |ms| => ms[i].projectLink)
  }
}
